=== FILE: README.md ===
# DataUtilities connectors, modelled in Dafny

DataUtilities gives one shape to three item sources:

- `EmailDataSource` reads attachments from an Office 365 mailbox through Microsoft Graph.
- `FtpDataSource` reads files from an SFTP folder.
- `FileDataSource` reads files from a local folder.

Each source validates its configuration and fetches a single item by key. Each can also enumerate its items, narrowed by an optional date range and optional paging.

This project models the logic that sits under the I/O and proves what it does. That logic covers:

- how a date range and paging become an OData query (`$filter`, `$skip`, `$top`);
- how a `/`- or `\`-separated mail folder path is resolved by walking child folders;
- how a message is expanded into its kept attachments plus one manufactured body attachment;
- how each pair becomes an item, with or without a download;
- how the folder request is cached;
- how the file connectors select files: not a directory, strictly inside the dates, one page.

The remote side is plain data, with one value for each kind of server:

- a Graph server, holding per-user mailboxes with a folder tree, messages, attachment listings and contents;
- an SFTP server, holding accounts, listings, entries and contents;
- a disk, holding listings, write times and contents.

Every operation returns its result together with the requests it sent, in order. Claims such as "rejected before any request" and "one download per file" are therefore statements about that trace.

Exceptions are `Err` values of one `Error` type. Each keeps the constructor arguments as the code passes them. `new ArgumentNullException("Missing", nameof(key))` therefore has parameter name "Missing" and message "key", because that constructor takes the parameter name first.

Modules, in dependency order:

| file | module | what it holds |
|---|---|---|
| `wrappers.dfy` | `Wrappers` | `Option`, `Result` |
| `errors.dfy` | `Errors` | the exceptions raised |
| `text.dfy` | `Text` | white space, `Replace`, `Split`, `Join`, decimal digits |
| `timestamps.dfy` | `Timestamps` | calendar instants, `yyyy-MM-ddTHH:mm:ssZ` formatting and parsing |
| `date_range.dfy` | `DateRanges` | `DataSourceDateRange` and the strict bound predicate |
| `selection.dfy` | `Selection` | `Where`, `Skip`, `Take`, paging and the date steps of LINQ |
| `encoding.dfy` | `Encoding` | bytes and UTF-8 |
| `graph.dfy` | `Graph` | mail entities and the Graph server |
| `sftp.dfy` | `Sftp` | SFTP entries and server |
| `local_disk.dfy` | `LocalDisk` | local files |
| `stream_items.dfy` | `StreamItems` | the three memory-stream items and their keys |
| `graph_api_helper.dfy` | `GraphApiHelper` | `BuildMailboxPath` |
| `email_query.dfy` | `EmailQuery` | filter and paging query options, and their parse-back |
| `email_source.dfy` | `EmailSource` | `EmailDataSource` |
| `ftp_source.dfy` | `FtpSource` | `FtpDataSource` |
| `file_source.dfy` | `FileSource` | `FileDataSource` |

The doc comment of `GetItemsAsync` (`EmailDataSource.cs:100`) calls the received-date bounds inclusive. The code emits strict `gt` and `lt`, and both file connectors compare with strict `>` and `<`. The model follows the code: `DateRanges.Admits` is strict on both sides.

## Model

| member | source | states |
|---|---|---|
| DateRanges.NewDateRange | DataUtilities/DataSourceDateRange.cs:10-14 | any pair of bounds is accepted, with no ordering check, and both are kept as given |
| DateRanges.ToString | DataUtilities/DataSourceDateRange.cs:16-19 | the text is always part-from, one space, part-to: `" "` with no bounds, a trailing space with only From, a leading space with only To |
| Timestamps.Format | DataUtilities/DataSource/EmailDataSource.cs:288 | a rendering is twenty characters in the `yyyy-MM-ddTHH:mm:ssZ` layout, with its separators at fixed places |
| Timestamps.ParseFormat | DataUtilities/DataSource/EmailDataSource.cs:288 | the `yyyy-MM-ddTHH:mm:ssZ` rendering is read back as the same instant cut to the whole second |
| Timestamps.FormatSameSecond | DataUtilities/DataSource/EmailDataSource.cs:288 | two instants render alike exactly when they fall in the same second |
| EmailQuery.DateRangeFilterValues | DataUtilities/DataSource/EmailDataSource.cs:280-294 | a null range and a blank field are rejected; otherwise there is one clause per present bound, From's `gt` before To's `lt` |
| EmailQuery.ParseClauseRoundTrip | DataUtilities/DataSource/EmailDataSource.cs:288-291 | a clause reads back as its operator and its instant to the second |
| EmailQuery.ReceivedFilters | DataUtilities/DataSource/EmailDataSource.cs:105-111 | at most two clauses, none exactly when the range is null or has no bound, and the same clauses `GetDateRangeFilterValues` gives on `ReceivedDateTime` |
| EmailQuery.FilterRoundTrip | DataUtilities/DataSource/EmailDataSource.cs:105-117 | the `$filter` option parses back to the range's bounds cut to the second, and is absent when the range has none |
| EmailQuery.FilterNeverEmpty | DataUtilities/DataSource/EmailDataSource.cs:113-117 | a `$filter` option exists exactly when some clause does; its value is the clauses joined by `" and "` and is never empty |
| EmailQuery.PagingRoundTrip | DataUtilities/DataSource/EmailDataSource.cs:119-127 | with paging, `$skip` reads back as `PageSize * Page` and `$top` as `PageSize`; without paging, neither is present |
| EmailQuery.OptionsParts | DataUtilities/DataSource/EmailDataSource.cs:105-127 | looking up `$filter` gives the clauses joined by `" and "` exactly when there is a clause; `$skip` and `$top` give `PageSize * Page` and `PageSize` exactly when paging is requested; this row carries `EmailQuery.MessagesQueryOptions` |
| Text.JoinSplit | DataUtilities/GraphAPIHelper.cs:16 | joining the pieces of a split with the separator gives back the text |
| Text.SplitCount | DataUtilities/GraphAPIHelper.cs:16 | a split yields one piece more than there are separators, so empty pieces are kept |
| GraphApiHelper.Segments | DataUtilities/GraphAPIHelper.cs:16 | at least one segment; no segment holds `/` or `\`; the segments joined by `/` are the path with `\` replaced by `/` |
| GraphApiHelper.SingleOrDefault | DataUtilities/GraphAPIHelper.cs:30 | no match exactly when no child has that display name, ambiguous exactly when several do, otherwise that child |
| GraphApiHelper.Walk | DataUtilities/GraphAPIHelper.cs:23-38 | a walk lists at most one folder per segment, always the starting folder first; a success lists one folder per segment |
| GraphApiHelper.WalkTrace | DataUtilities/GraphAPIHelper.cs:23-38 | each listed folder is the unique exact-name match of the previous segment, one level further down; a success ends one step below the last listing; a failure stops at the first stuck step with that step's error |
| GraphApiHelper.WalkSteps | DataUtilities/GraphAPIHelper.cs:28-36 | each listed folder after the first is the unique exact-name match, among the previous folder's children, of the previous segment |
| GraphApiHelper.WalkDepth | DataUtilities/GraphAPIHelper.cs:28-36 | the k-th listed folder lies k levels below the start, and a success ends one level per segment below it |
| GraphApiHelper.WalkSucceeds | DataUtilities/GraphAPIHelper.cs:28-38 | a success ends at the unique match of the last segment under the last listed folder |
| GraphApiHelper.WalkFails | DataUtilities/GraphAPIHelper.cs:28-36 | a failure happens at the last listed folder, whose listing failed or had no single match, with that step's error |
| GraphApiHelper.WalkFollowsChain | DataUtilities/GraphAPIHelper.cs:23-38 | when every segment has a unique match, the walk ends at the chain's last folder after listing each earlier one once |
| GraphApiHelper.WalkStopsAtFirstFailure | DataUtilities/GraphAPIHelper.cs:30-35 | the walk stops at the first segment with no unique match, raising "does not exist" for none or the `SingleOrDefault` error for several, and lists nothing below it |
| GraphApiHelper.WalkAfterRoot | DataUtilities/GraphAPIHelper.cs:23-38 | the walk over the segments after the root, restated at the segments' own positions: listing `i` descends into the unique match of segment `i + 1` |
| GraphApiHelper.BuildMailboxPath | DataUtilities/GraphAPIHelper.cs:10-41 | a null client, blank folder or blank user is refused with no request; the root segment is addressed by name with no request; the first listing is the root, and each later listing is the unique exact-name match of its segment among the previous listing's children; a success addresses the unique match of the last segment, one level per later segment below the root; a failure stops at the last listing, which is stuck on the next segment, with that step's error |
| StreamItems.NewAttachmentMemoryStream | DataUtilities/Model/AttachmentMemoryStream.cs:15-23 | a null attachment, then a null message, is refused; otherwise the stream is empty, holds both records, and is keyed (message id, attachment id) |
| StreamItems.NewSftpMemoryStream | DataUtilities/Model/SftpMemoryStream.cs:13-23 | a null file is refused; otherwise the stream is empty, holds the file, and its key and `ToString()` are the full path |
| StreamItems.NewFileMemoryStream | DataUtilities/Model/FileMemoryStream.cs:12-23 | a null file is refused; otherwise the stream is empty, holds the file, and its key and `ToString()` are the full path |
| EmailSource.NewEmailDataSource | DataUtilities/DataSource/EmailDataSource.cs:42-52 | name, clientId, clientSecret, tenantId and username are checked for blanks in that order; in the model, success exactly when none is blank; the folder is stored unchecked and the cache is empty |
| EmailSource.NewEmailDataSourceInInbox | DataUtilities/DataSource/EmailDataSource.cs:42 | the folder defaults to "Inbox" |
| EmailSource.GetMailBoxRequest | DataUtilities/DataSource/EmailDataSource.cs:32-40 | with a cached request, returns it with no request and no change; otherwise resolves the folder, stores a success and nothing else, and leaves a failure uncached |
| EmailSource.MailBoxRequestCached | DataUtilities/DataSource/EmailDataSource.cs:32-40 | after one success, the next call returns the same request and sends nothing |
| EmailSource.EmailBodyFilename | DataUtilities/DataSource/EmailDataSource.cs:228-234 | "EmailBody.html" exactly when the body is HTML, otherwise "EmailBody.txt" |
| EmailSource.KeptExactly | DataUtilities/DataSource/EmailDataSource.cs:268 | only non-inline file attachments of the listing are kept, and every one of them is |
| EmailSource.ExpandMessage | DataUtilities/DataSource/EmailDataSource.cs:247-271 | a message's group has one more pair than it has kept attachments |
| EmailSource.ExpandMessageShape | DataUtilities/DataSource/EmailDataSource.cs:254-270 | every pair carries the message; the kept attachments come first, in server order, none of them a body; the last pair is the body, with id `<id>-email-body`, type "email-body", the UTF-8 body as content and its length as size, and the received time |
| EmailSource.OneBodyPerMessage | DataUtilities/DataSource/EmailDataSource.cs:247-271 | a batch holds exactly one body pair per message, even for messages with no attachments |
| EmailSource.CandidateBodies | DataUtilities/DataSource/EmailDataSource.cs:254-270 | every body pair of a batch is its own message's body |
| EmailSource.EmailBodyItemAsWritten | DataUtilities/DataSource/EmailDataSource.cs:197-202 | as written, the body item is always empty |
| EmailSource.BodyContentLostAsWritten | DataUtilities/DataSource/EmailDataSource.cs:200 | as written, a message with a non-empty body yields a body item that lacks the body's bytes |
| EmailSource.EmailBodyItem | DataUtilities/DataSource/EmailDataSource.cs:197-202 | as intended, the body item holds the body attachment's bytes under (message id, attachment id) |
| EmailSource.BodyItemHoldsBody | DataUtilities/DataSource/EmailDataSource.cs:197-202 | as intended, a message's body item holds the UTF-8 of its body under (id, `<id>-email-body`) |
| EmailSource.DownloadItem | DataUtilities/DataSource/EmailDataSource.cs:210-226 | a real attachment costs exactly one content download, addressed by user, message id and attachment id; a failed download raises the server's error unchanged |
| EmailSource.GetItem | DataUtilities/DataSource/EmailDataSource.cs:183-195 | a null attachment, then a null message, is refused; a body is wrapped with no request; a real attachment is downloaded with one request and holds the server's content, or raises the server's error unchanged (the body item is the corrected one, see Findings) |
| EmailSource.MaterializeAll | DataUtilities/DataSource/EmailDataSource.cs:133-136 | a successful pass yields one item per pair, in order, with one download per non-body pair |
| EmailSource.FirstFailedPairIsFirst | DataUtilities/DataSource/EmailDataSource.cs:133-136 | the first failing position of a group is first: every pair before it materializes and the pair at it fails |
| EmailSource.MaterializeStops | DataUtilities/DataSource/EmailDataSource.cs:133-136 | the pass over a group succeeds exactly when no pair fails; otherwise it raises the first failing pair's own error, after the downloads of the pairs up to and including that one |
| EmailSource.MessageGroupFails | DataUtilities/DataSource/EmailDataSource.cs:247-271 | a failing message turn either fails its attachments listing, with nothing sent after the query, or raises the error of the first failing pair of its group after the downloads up to that pair; this row carries `EmailSource.MessageGroup` |
| EmailSource.FirstFailedMessageIsFirst | DataUtilities/DataSource/EmailDataSource.cs:131-137 | every message before the first failing turn completes its turn, and the message at that position fails |
| EmailSource.GroupsForStops | DataUtilities/DataSource/EmailDataSource.cs:131-137 | the enumeration succeeds exactly when every message's turn does; otherwise it raises the first failing turn's error unchanged; this row and the GroupsFor rows below carry `EmailSource.GroupsFor` |
| EmailSource.GroupsForTraceOk | DataUtilities/DataSource/EmailDataSource.cs:247-271 | a successful enumeration sends every message's turn, in message order |
| EmailSource.GroupsForTraceErr | DataUtilities/DataSource/EmailDataSource.cs:247-271 | a failed enumeration sends the turns of the messages up to and including the first failing one, and lists no message after it |
| EmailSource.GroupsForItems | DataUtilities/DataSource/EmailDataSource.cs:131-137 | a successful enumeration yields one item per pair of the batch, in order; a failed attachment listing fails it |
| EmailSource.GroupsForYield | DataUtilities/DataSource/EmailDataSource.cs:131-137 | each item of a successful enumeration carries its pair's key and either the body's bytes or the server's content for that pair (the body item is the corrected one, see Findings) |
| EmailSource.GroupsForListings | DataUtilities/DataSource/EmailDataSource.cs:247-253 | a successful enumeration sends exactly one attachments query per message, in message order |
| EmailSource.GroupsForDownloads | DataUtilities/DataSource/EmailDataSource.cs:131-137 | a successful enumeration sends exactly one content download per non-body pair, in pair order, and none for bodies |
| EmailSource.GetItems | DataUtilities/DataSource/EmailDataSource.cs:103-119 | the folder is resolved or taken from the cache; a failed resolution ends the call with its error after the resolution's requests; the cache is the only state that changes |
| EmailSource.GetItemsTrace | DataUtilities/DataSource/EmailDataSource.cs:119-138 | after the folder, exactly one messages query is sent with the filter and paging options; a failed query ends the call with its error; otherwise the enumeration of the returned messages follows and its outcome is the call's |
| EmailSource.GetItemsYield | DataUtilities/DataSource/EmailDataSource.cs:131-137 | items come in message order, each group its kept attachments then its body; body items hold the body bytes (corrected body item, see Findings) and real items their downloaded content |
| EmailSource.GetItemsForEmail | DataUtilities/DataSource/EmailDataSource.cs:145-149 | a blank id is refused with no request; a failed resolution ends the call with its error after the resolution's requests; success needs the message fetch to succeed |
| EmailSource.GetItemsForEmailTrace | DataUtilities/DataSource/EmailDataSource.cs:149-162 | after the folder, exactly one message query is sent; a failed fetch ends the call with its error; otherwise the message's single turn follows and its outcome is the call's |
| EmailSource.GetItemsForEmailYield | DataUtilities/DataSource/EmailDataSource.cs:155-161 | one message yields its kept attachments, then its body with the body's bytes (corrected body item, see Findings) |
| EmailSource.GetItemByKey | DataUtilities/DataSource/EmailDataSource.cs:78-95 | blank id halves are refused, email id first, with no request; a success has found both the message and the attachment |
| EmailSource.GetItemByKeySuccess | DataUtilities/DataSource/EmailDataSource.cs:83-94 | a success sends the folder resolution, then the message fetch, the attachment fetch and one download, in that order, and holds the downloaded bytes under (message id, attachment id) |
| EmailSource.GetItemByKeyFailures | DataUtilities/DataSource/EmailDataSource.cs:83-92 | a failed resolution leaves the connector as it was; a missing message fails after the message request; a missing attachment fails after the attachment request |
| EmailSource.BodyKeyGoesToServer | DataUtilities/DataSource/EmailDataSource.cs:83-94 | an `<id>-email-body` key is not special-cased: the message and then that attachment id are requested from the server; a success holds the server's download, and without such an attachment the call fails after those two requests |
| EmailSource.ByKeyAgreesWithEnumeration | DataUtilities/DataSource/EmailDataSource.cs:78-95 | fetching by key a message's listed attachment gives the item the enumeration materializes for that pair |
| Selection.PaginateWindow | DataUtilities/DataSource/FtpDataSource.cs:119-123 | paging cuts out one contiguous window of at most `PageSize`, starting after `Page * PageSize`, which falls short only at the end |
| Selection.PagesAdjacent | DataUtilities/DataSource/FtpDataSource.cs:121 | page `k + 1` starts where page `k` ends |
| Selection.DateFilterAdmits | DataUtilities/DataSource/FtpDataSource.cs:110-117 | the From step and the To step together keep exactly what the range strictly admits; a null range or absent bound keeps all |
| Selection.FilterThenDates | DataUtilities/DataSource/FtpDataSource.cs:106-117 | the directory filter followed by the date steps is one filter by both, in listing order |
| Selection.WhereWhere | DataUtilities/DataSource/FtpDataSource.cs:113-116 | two successive `Where`s keep what both predicates accept, in order |
| FtpSource.NewFtpDataSource | DataUtilities/DataSource/FtpDataSource.cs:22-35 | name, hostname, username, password and remoteFolder are checked for blanks in that order; in the model, success exactly when none is blank |
| FtpSource.NewFtpDataSourceOnDefaultPort | DataUtilities/DataSource/FtpDataSource.cs:22 | the port defaults to 22 |
| FtpSource.DownloadFile | DataUtilities/DataSource/FtpDataSource.cs:65-73 | one download of the full path into an item keyed by that path, holding the server's bytes; a failed download raises the server's error unchanged |
| FtpSource.DownloadFiles | DataUtilities/DataSource/FtpDataSource.cs:47-56 | a success yields one item per file, in order, with one download each |
| FtpSource.DownloadFilesFailure | DataUtilities/DataSource/FtpDataSource.cs:52-55 | a failure stops at the first file whose download failed: every earlier download succeeded, exactly those files and the failing one were downloaded, and the failing download's error is raised unchanged |
| FtpSource.SelectFilesWindow | DataUtilities/DataSource/FtpDataSource.cs:105-123 | the selection is one page of the listing's non-directory entries strictly inside the range, in listing order; with the next row it carries `FtpSource.SelectFiles` |
| FtpSource.SelectedFilesAdmitted | DataUtilities/DataSource/FtpDataSource.cs:106-123 | no directory and nothing outside the range is selected, and at most `PageSize` entries are |
| FtpSource.GetItems | DataUtilities/DataSource/FtpDataSource.cs:99-130 | connect, then list the folder, then one download per selected file; a failed connect or listing raises its error after exactly the requests sent so far; otherwise the downloads' outcome is the call's; one item per selected file, keyed by its path and holding its bytes |
| FtpSource.GetItemByKey | DataUtilities/DataSource/FtpDataSource.cs:81-91 | a blank key is refused before connecting; a success is connect, look-up, one download, keyed by the entry's path |
| FtpSource.ByKeyAgreesWithListing | DataUtilities/DataSource/FtpDataSource.cs:81-91 | fetching by key an item the enumeration yielded gives the same item |
| FileSource.NewFileDataSource | DataUtilities/DataSource/FileDataSource.cs:16-23 | name, then localFolder, is checked for blanks; success exactly when neither is blank |
| FileSource.ReadFileContent | DataUtilities/DataSource/FileDataSource.cs:61-76 | a null file is refused; otherwise one read yields an item keyed by the full path and holding the whole file, or raises the read's error unchanged |
| FileSource.ReadFilesContent | DataUtilities/DataSource/FileDataSource.cs:45-53 | a success yields one item per file, in order, with one read each |
| FileSource.ReadFilesFailure | DataUtilities/DataSource/FileDataSource.cs:49-52 | a failure stops at the first file that could not be read: every earlier read succeeded, exactly those files and the failing one were read, and the failing read's error is raised unchanged |
| FileSource.SelectFilesWindow | DataUtilities/DataSource/FileDataSource.cs:86-103 | the selection is one page of the listing's files written strictly inside the range, in listing order; with the next row it carries `FileSource.SelectFiles` |
| FileSource.SelectedFilesAdmitted | DataUtilities/DataSource/FileDataSource.cs:86-103 | nothing outside the range is selected, only files of the listing, and at most `PageSize` of them |
| FileSource.GetItems | DataUtilities/DataSource/FileDataSource.cs:84-109 | list the folder, then one read per selected file; a failed listing raises its error after that access alone; otherwise the reads' outcome is the call's; one item per selected file, keyed by its path and holding its bytes |
| FileSource.GetItemByKey | DataUtilities/DataSource/FileDataSource.cs:31-37 | a blank key is refused with `ArgumentNullException("Missing", "key")` before touching the disk; otherwise that one path is read |
| FileSource.ByKeyAgreesWithListing | DataUtilities/DataSource/FileDataSource.cs:31-37 | fetching by key an item the enumeration yielded gives the same item |

## Left out

- Credential and client construction (`EmailDataSource.cs:54-70`) and the SSH.NET `ConnectionInfo` (`FtpDataSource.cs:37`) are left out, because they are foreign code. SSH.NET's own checks of host and port are therefore not modelled. A connection succeeds exactly when the server accepts the user name and password.
- EmailSource.NewEmailDataSource: states success when no argument is blank, but the `ClientSecretCredential` constructor (`EmailDataSource.cs:67-68`) is foreign code that may itself throw, and that failure is not modelled.
- FtpSource.NewFtpDataSource: states success when no argument is blank, but the SSH.NET `ConnectionInfo` constructor (`FtpDataSource.cs:37`) is foreign code that may itself throw, and that failure is not modelled.
- `TestAuthentication` in all three connectors is left out. Each is a blocking probe whose only effect is an exception from foreign code.
- Laziness and concurrency are left out. Each enumeration is modelled as its eager result or its first failure, so a consumer that stops early is not modelled. The unguarded check-then-set on `_mailboxRequest` is modelled as sequential state.
- How Graph evaluates the messages query is left out. `EmailSource.GetItems` takes the server's answer as a parameter, `response`: the messages returned or the error raised. The model proves what query is sent and what follows from either answer, not which answer the server gives. In particular an unknown root folder, which `BuildMailboxPath` addresses without a request, is not tied to a failure of that query.
- Graph's server-side paging of listings (`@odata.nextLink`) is left out. The source reads only the first page of each listing, and the model's server returns whatever listing it holds.
- Messages are looked up by user and id, not within the resolved folder, because Graph's behaviour for a message outside the folder is not visible.
- Every remote failure (Graph service errors, SFTP and file-system exceptions) is left out as a distinct type. All of them are one `RemoteError`.
- Time zones and locale are left out. Instants are UTC calendar values, so `UtcDateTime`, `ToUniversalTime` and the local-time `DateTime` against `DateTimeOffset` comparison are identities. `DataSourceDateRange.ToString` takes the culture-dependent rendering of a bound as a parameter.
- `AttachmentMemoryStream.ToString` is left out. It needs the sender address and a local-time rendering, neither of which is modelled.
- EmailQuery.PagingRoundTrip: does not model the 32-bit overflow of `PageSize * Page`. `DataSourcePagingOptions` is not part of this model, and page and page size are taken as naturals.
- Selection.PaginateWindow: does not model the 32-bit overflow of `Page * PageSize` either. A product that wraps negative would make `Skip` start from the beginning of the listing; the model's product never wraps.
- FtpSource.SelectFilesWindow: pages with the unbounded product, not the 32-bit `Page * PageSize` of `FtpDataSource.cs:121`.
- FileSource.SelectFilesWindow: pages with the unbounded product, not the 32-bit `Page * PageSize` of `FileDataSource.cs:101`.
- A null message body and a null body content are left out. A null `m.Body` fails with a null reference on `m.Body.Content`. A null `m.Body.Content` makes `Encoding.UTF8.GetBytes` throw `ArgumentNullException` (`EmailDataSource.cs:255`). In the model every message has a body, and its content is a string.
- Strings are sequences of Unicode scalar values, so the UTF-8 replacement of lone surrogates does not arise.
- `new FileInfo(key)` normalizes a relative path to a full path. That normalization is left out: the item's key is the given path.
- The null checks on `client`, `files`, `file` and `messages` in the protected helpers are left out (`FtpDataSource.cs:49-50,67-68`, `FileDataSource.cs:47`, `EmailDataSource.cs:243`). Their callers never pass null, so those parameters are not optional in the model.
- The repeated `attachment` and `message` null checks of `GetAttachmentMemoryStreamAsync` (`EmailDataSource.cs:212-213`) are left out. Its only caller, `GetItemAsync`, has already made the same checks (`EmailDataSource.cs:185-186`, modelled by `EmailSource.GetItem`).
- The stream position after a download or write is left out. An item's state is its content.
- The interfaces under `Interfaces/` are left out, because they carry no behaviour.

## Findings

| source | as written | input that shows it | evidently intended | confidence | as-written member | corrected member |
|---|---|---|---|---|---|---|
| DataUtilities/DataSource/EmailDataSource.cs:200 | `await attachmentMemoryStream.ReadAsync(attachment.BodyContent)` reads from the fresh, empty stream into the body buffer, so nothing is written and the body item is empty | any message whose body text is non-empty, e.g. body "hi": its body item has no content, though the body attachment's `Size` is 2 | `WriteAsync(attachment.BodyContent)`: the body item holds the body's UTF-8 bytes | high; not executed | EmailSource.BodyContentLostAsWritten | EmailSource.BodyItemHoldsBody |

The rest of the model uses the corrected body item (`EmailSource.EmailBodyItem`).

=== FILE: date_range.dfy ===
/** `DataSourceDateRange`: an optional lower and upper bound on an item's
    timestamp, and the strict reading every connector gives the bounds. */
module DateRanges {
  import opened Wrappers
  import opened Text
  import opened Timestamps

  datatype DateRange = DateRange(from: Option<Instant>, to: Option<Instant>)

  /** The constructor: both bounds stored as given, with no check that
      `from` precedes `to`. */
  function NewDateRange(from: Option<Instant>, to: Option<Instant>): (r: DateRange)
    ensures r.from == from && r.to == to
  {
    DateRange(from, to)
  }

  /** Whether an item stamped `t` passes the range filter: strictly after
      `from` and strictly before `to`; a null range or a missing bound
      imposes nothing. */
  predicate Admits(range: Option<DateRange>, t: Instant) {
    range.None? ||
    ((range.value.from.None? || Before(range.value.from.value, t)) &&
     (range.value.to.None? || Before(t, range.value.to.value)))
  }

  /** One part of `ToString`: `$"From {From}"`, or null when the bound is
      absent (which `string.Join` renders as ""). */
  function Part(caption: string, bound: Option<Instant>, render: Instant -> string): string {
    if bound.Some? then caption + " " + render(bound.value) else ""
  }

  /** `ToString`: the two parts joined by one space; `render` stands for the
      culture-dependent `DateTimeOffset.ToString()`. */
  function ToString(r: DateRange, render: Instant -> string): (s: string)
    ensures r.from.None? && r.to.None? ==> s == " "
    ensures r.from.Some? && r.to.None? ==> s == "From " + render(r.from.value) + " "
    ensures r.from.None? && r.to.Some? ==> s == " To " + render(r.to.value)
    ensures r.from.Some? && r.to.Some? ==>
              s == "From " + render(r.from.value) + " To " + render(r.to.value)
  {
    var from, to := Part("From", r.from, render), Part("To", r.to, render);
    JoinPair(" ", from, to);
    Join(" ", [from, to])
  }
}

=== FILE: email_query.dfy ===
/** How the mailbox connector turns a date range and paging options into the
    query options of a Graph messages request: `$filter` clauses with `gt`/`lt`
    comparisons in the style of section 5.1.1 of the OData Version 4.01 URL
    Conventions, and `$skip`/`$top`. */
module EmailQuery {
  import opened Wrappers
  import opened Errors
  import opened Text
  import opened Timestamps
  import opened DateRanges
  import opened Selection

  /** The message field the range applies to. */
  const ReceivedField: string := "ReceivedDateTime"

  /** `new QueryOption(name, value)` */
  datatype QueryOption = QueryOption(name: string, value: string)

  /** One comparison clause: `"<field> <op> <yyyy-MM-ddTHH:mm:ssZ>"`. */
  function Clause(field: string, op: string, t: Instant): string {
    field + " " + op + " " + Format(t)
  }

  /** `GetDateRangeFilterValues(dateRange, field)`: a null range and a blank
      field are rejected; then one `gt` clause for `From` and one `lt` clause
      for `To`, in that order, each only when its bound is present. */
  function DateRangeFilterValues(dateRange: Option<DateRange>, field: Option<string>)
    : (r: Result<seq<string>, Error>)
    ensures dateRange.None? ==> r == Err(NullArgument("dateRange"))
    ensures dateRange.Some? && IsNullOrWhiteSpace(field) ==> r == Err(MissingNull("field"))
    ensures r.Ok? <==> dateRange.Some? && !IsNullOrWhiteSpace(field)
    ensures r.Ok? ==>
              var d := dateRange.value;
              && |r.value| == (if d.from.Some? then 1 else 0) + (if d.to.Some? then 1 else 0)
              && (d.from.Some? ==> r.value[0] == Clause(field.value, "gt", d.from.value))
              && (d.to.Some? ==> r.value[|r.value| - 1] == Clause(field.value, "lt", d.to.value))
  {
    if dateRange.None? then Err(NullArgument("dateRange"))
    else if IsNullOrWhiteSpace(field) then Err(MissingNull("field"))
    else
      var d := dateRange.value;
      var fromClause := if d.from.Some? then [Clause(field.value, "gt", d.from.value)] else [];
      var toClause := if d.to.Some? then [Clause(field.value, "lt", d.to.value)] else [];
      Ok(fromClause + toClause)
  }

  /** The `filters` list of `GetItemsAsync`: empty for a null range. */
  function ReceivedFilters(range: Option<DateRange>): (clauses: seq<string>)
    ensures |clauses| <= 2
    ensures clauses == [] <==> range.None? || (range.value.from.None? && range.value.to.None?)
    ensures range.Some? ==> DateRangeFilterValues(range, Some(ReceivedField)) == Ok(clauses)
  {
    if range.None? then []
    else
      assert !IsWhiteSpace(ReceivedField[0]);
      var r := DateRangeFilterValues(range, Some(ReceivedField));
      r.value
  }

  /** The options of the messages request: `$filter` (the clauses joined by
      " and ") only when there is a clause, then `$skip` and `$top` only when
      paging is requested. */
  function MessagesQueryOptions(range: Option<DateRange>, paging: Option<PagingOptions>)
    : (options: seq<QueryOption>)
  {
    var clauses := ReceivedFilters(range);
    var filter := if |clauses| > 0 then [QueryOption("$filter", Join(" and ", clauses))] else [];
    var window := if paging.Some? then
                    [QueryOption("$skip", NatToString(paging.value.pageSize * paging.value.page)),
                     QueryOption("$top", NatToString(paging.value.pageSize))]
                  else [];
    filter + window
  }

  /** The value of the first option called `name`, if any. */
  function OptionValue(options: seq<QueryOption>, name: string): Option<string> {
    if options == [] then None
    else if options[0].name == name then Some(options[0].value)
    else OptionValue(options[1..], name)
  }

  lemma OptionValueAppend(xs: seq<QueryOption>, ys: seq<QueryOption>, name: string)
    ensures OptionValue(xs + ys, name)
            == if OptionValue(xs, name).Some? then OptionValue(xs, name) else OptionValue(ys, name)
  {
    if xs == [] {
      assert xs + ys == ys;
    } else {
      assert (xs + ys)[1..] == xs[1..] + ys;
      OptionValueAppend(xs[1..], ys, name);
    }
  }

  /** Where each option comes from: the filter part, then the paging part. */
  lemma OptionsParts(range: Option<DateRange>, paging: Option<PagingOptions>)
    ensures var options := MessagesQueryOptions(range, paging);
            var clauses := ReceivedFilters(range);
            && OptionValue(options, "$filter")
               == (if |clauses| > 0 then Some(Join(" and ", clauses)) else None)
            && OptionValue(options, "$skip")
               == (if paging.Some? then Some(NatToString(paging.value.pageSize * paging.value.page)) else None)
            && OptionValue(options, "$top")
               == (if paging.Some? then Some(NatToString(paging.value.pageSize)) else None)
  {
    var clauses := ReceivedFilters(range);
    var filter := if |clauses| > 0 then [QueryOption("$filter", Join(" and ", clauses))] else [];
    var window := if paging.Some? then
                    [QueryOption("$skip", NatToString(paging.value.pageSize * paging.value.page)),
                     QueryOption("$top", NatToString(paging.value.pageSize))]
                  else [];
    assert MessagesQueryOptions(range, paging) == filter + window;
    if paging.Some? {
      assert window[1..][1..] == [];
      assert OptionValue(window[1..][1..], "$filter") == None;
      assert OptionValue(window[1..], "$filter") == None;
    }
    OptionValueAppend(filter, window, "$filter");
    OptionValueAppend(filter, window, "$skip");
    OptionValueAppend(filter, window, "$top");
  }

  // ---------------------------------------------------------------------
  // Reading a query back

  /** Reads one clause back: its operator (`gt` or `lt`) and instant. */
  function ParseClause(field: string, c: string): Option<(string, Instant)> {
    var n := |field|;
    if |c| == n + 24 && c[..n] == field && c[n] == ' ' && c[n + 3] == ' '
       && (c[n + 1..n + 3] == "gt" || c[n + 1..n + 3] == "lt")
    then
      match Parse(c[n + 4..])
      case None => None
      case Some(t) => Some((c[n + 1..n + 3], t))
    else None
  }

  /** Reads a `$filter` value back into the range it constrains; a missing
      filter constrains nothing. */
  function ParseFilter(field: string, filter: Option<string>): Option<DateRange> {
    if filter.None? then Some(DateRange(None, None))
    else
      var s := filter.value;
      var n := |field| + 24;
      if |s| == n then
        match ParseClause(field, s)
        case None => None
        case Some((op, t)) =>
          if op == "gt" then Some(DateRange(Some(t), None)) else Some(DateRange(None, Some(t)))
      else if |s| == 2 * n + 5 && s[n..n + 5] == " and " then
        match (ParseClause(field, s[..n]), ParseClause(field, s[n + 5..]))
        case (Some((op1, a)), Some((op2, b))) =>
          if op1 == "gt" && op2 == "lt" then Some(DateRange(Some(a), Some(b))) else None
        case _ => None
      else None
  }

  /** A range as the query can express it: bounds to the whole second. */
  function Truncated(range: Option<DateRange>): DateRange {
    if range.None? then DateRange(None, None)
    else DateRange(if range.value.from.Some? then Some(TruncateToSecond(range.value.from.value)) else None,
                   if range.value.to.Some? then Some(TruncateToSecond(range.value.to.value)) else None)
  }

  lemma ParseClauseRoundTrip(field: string, op: string, t: Instant)
    requires op == "gt" || op == "lt"
    ensures ParseClause(field, Clause(field, op, t)) == Some((op, TruncateToSecond(t)))
  {
    var c := Clause(field, op, t);
    var n := |field|;
    assert c[..n] == field;
    assert c[n + 1..n + 3] == op;
    assert c[n + 4..] == Format(t);
    ParseFormat(t);
  }

  lemma ParseBothClauses(a: Instant, b: Instant)
    ensures var s := Join(" and ", [Clause(ReceivedField, "gt", a), Clause(ReceivedField, "lt", b)]);
            ParseFilter(ReceivedField, Some(s))
            == Some(DateRange(Some(TruncateToSecond(a)), Some(TruncateToSecond(b))))
  {
    var n := |ReceivedField| + 24;
    var ca := Clause(ReceivedField, "gt", a);
    var cb := Clause(ReceivedField, "lt", b);
    JoinPair(" and ", ca, cb);
    var s := ca + " and " + cb;
    assert s[..n] == ca && s[n..n + 5] == " and " && s[n + 5..] == cb;
    ParseClauseRoundTrip(ReceivedField, "gt", a);
    ParseClauseRoundTrip(ReceivedField, "lt", b);
  }

  lemma ParseOneClause(op: string, t: Instant)
    requires op == "gt" || op == "lt"
    ensures ParseFilter(ReceivedField, Some(Join(" and ", [Clause(ReceivedField, op, t)])))
            == Some(if op == "gt" then DateRange(Some(TruncateToSecond(t)), None)
                    else DateRange(None, Some(TruncateToSecond(t))))
  {
    ParseClauseRoundTrip(ReceivedField, op, t);
  }

  /** The emitted `$filter` says exactly what the range says, to the second:
      reading it back gives the truncated bounds, and no range (or an empty
      one) attaches no filter at all. */
  lemma FilterRoundTrip(range: Option<DateRange>, paging: Option<PagingOptions>)
    ensures ParseFilter(ReceivedField, OptionValue(MessagesQueryOptions(range, paging), "$filter"))
            == Some(Truncated(range))
  {
    var clauses := ReceivedFilters(range);
    OptionsParts(range, paging);
    if |clauses| > 0 {
      var d := range.value;
      if d.from.Some? && d.to.Some? {
        assert clauses == [Clause(ReceivedField, "gt", d.from.value), Clause(ReceivedField, "lt", d.to.value)];
        ParseBothClauses(d.from.value, d.to.value);
      } else if d.from.Some? {
        assert clauses == [Clause(ReceivedField, "gt", d.from.value)];
        ParseOneClause("gt", d.from.value);
      } else {
        assert clauses == [Clause(ReceivedField, "lt", d.to.value)];
        ParseOneClause("lt", d.to.value);
      }
    }
  }

  /** `$skip` and `$top` are present exactly when paging is requested, and
      read back as `PageSize * Page` and `PageSize`. */
  lemma PagingRoundTrip(range: Option<DateRange>, paging: Option<PagingOptions>)
    ensures var options := MessagesQueryOptions(range, paging);
            && (paging.None? ==> OptionValue(options, "$skip") == None && OptionValue(options, "$top") == None)
            && (paging.Some? ==>
                  && OptionValue(options, "$skip").Some?
                  && ParseNat(OptionValue(options, "$skip").value) == Some(paging.value.pageSize * paging.value.page)
                  && OptionValue(options, "$top").Some?
                  && ParseNat(OptionValue(options, "$top").value) == Some(paging.value.pageSize))
  {
    OptionsParts(range, paging);
    if paging.Some? {
      NatToStringRoundTrip(paging.value.pageSize * paging.value.page);
      NatToStringRoundTrip(paging.value.pageSize);
    }
  }

  /** No `$filter` is ever attached with an empty value, and one is attached
      exactly when there is at least one clause. */
  lemma FilterNeverEmpty(range: Option<DateRange>, paging: Option<PagingOptions>)
    ensures var f := OptionValue(MessagesQueryOptions(range, paging), "$filter");
            && (f.Some? <==> ReceivedFilters(range) != [])
            && (f.Some? ==> f.value == Join(" and ", ReceivedFilters(range)) && f.value != "")
  {
    var clauses := ReceivedFilters(range);
    OptionsParts(range, paging);
    if clauses != [] {
      assert |clauses[0]| > 0 by {
        var d := range.value;
        assert clauses[0] == Clause(ReceivedField, if d.from.Some? then "gt" else "lt",
                                    if d.from.Some? then d.from.value else d.to.value);
      }
      if |clauses| == 2 {
        JoinPair(" and ", clauses[0], clauses[1]);
        assert clauses == [clauses[0], clauses[1]];
      }
    }
  }
}

=== FILE: email_source.dfy ===
/** `EmailDataSource`: the mailbox connector.  It resolves its folder once and
    caches the request chain, translates a date range and paging into a
    messages query, expands each message into its kept file attachments plus
    one manufactured body attachment, and turns each of those into an item. */
module EmailSource {
  import opened Wrappers
  import opened Errors
  import opened Text
  import opened Encoding
  import opened DateRanges
  import opened Selection
  import opened Graph
  import opened GraphApiHelper
  import opened StreamItems
  import opened EmailQuery

  /** The folder used when the caller names none. */
  const DefaultMailFolder: string := "Inbox"
  /** Appended to a message id to form its body attachment's id. */
  const BodyIdSuffix: string := "-email-body"
  /** The content type of a body attachment. */
  const BodyContentType: string := "email-body"

  /** A connector: its configuration, the Graph server its client talks to,
      and the cached folder request (`_mailboxRequest`, null until the first
      successful resolution). */
  datatype EmailDataSource = EmailDataSource(name: string, mailFolder: Option<string>,
                                             username: string, client: GraphServer,
                                             mailboxRequest: Option<FolderRequest>)

  /** A request the connector sends to Graph. */
  datatype GraphRequest =
    | ChildFoldersQuery(folder: FolderRequest)
    | MessagesQuery(folder: FolderRequest, options: seq<QueryOption>)
    | MessageQuery(folder: FolderRequest, messageId: string)
    | AttachmentsQuery(folder: FolderRequest, messageId: string)
    | AttachmentQuery(folder: FolderRequest, messageId: string, attachmentId: string)
    | ContentDownload(user: string, messageId: string, attachmentId: string)

  /** What a call returns, the connector afterwards, and the requests it sent
      in order. */
  datatype Call<T> = Call(result: Result<T, Error>, source: EmailDataSource, requests: seq<GraphRequest>)

  /** The same for calls that leave the connector alone. */
  datatype Fetch<T> = Fetch(result: Result<T, Error>, requests: seq<GraphRequest>)

  /** The constructor: each required argument, in order, must not be blank;
      the folder is stored unchecked and nothing is resolved yet. */
  function NewEmailDataSource(name: Option<string>, clientId: Option<string>,
                              clientSecret: Option<string>, tenantId: Option<string>,
                              username: Option<string>, mailFolder: Option<string>,
                              client: GraphServer): (r: Result<EmailDataSource, Error>)
    ensures IsNullOrWhiteSpace(name) ==> r == Err(Missing("name"))
    ensures !IsNullOrWhiteSpace(name) && IsNullOrWhiteSpace(clientId) ==> r == Err(Missing("clientId"))
    ensures (!IsNullOrWhiteSpace(name) && !IsNullOrWhiteSpace(clientId)
             && IsNullOrWhiteSpace(clientSecret)) ==> r == Err(Missing("clientSecret"))
    ensures (!IsNullOrWhiteSpace(name) && !IsNullOrWhiteSpace(clientId) && !IsNullOrWhiteSpace(clientSecret)
             && IsNullOrWhiteSpace(tenantId)) ==> r == Err(Missing("tenantId"))
    ensures (!IsNullOrWhiteSpace(name) && !IsNullOrWhiteSpace(clientId) && !IsNullOrWhiteSpace(clientSecret)
             && !IsNullOrWhiteSpace(tenantId) && IsNullOrWhiteSpace(username)) ==> r == Err(Missing("username"))
    ensures r.Ok? <==> !IsNullOrWhiteSpace(name) && !IsNullOrWhiteSpace(clientId)
                       && !IsNullOrWhiteSpace(clientSecret) && !IsNullOrWhiteSpace(tenantId)
                       && !IsNullOrWhiteSpace(username)
    ensures r.Ok? ==> r.value.name == name.value && r.value.username == username.value
                      && r.value.mailFolder == mailFolder && r.value.client == client
                      && r.value.mailboxRequest.None?
  {
    if IsNullOrWhiteSpace(name) then Err(Missing("name"))
    else if IsNullOrWhiteSpace(clientId) then Err(Missing("clientId"))
    else if IsNullOrWhiteSpace(clientSecret) then Err(Missing("clientSecret"))
    else if IsNullOrWhiteSpace(tenantId) then Err(Missing("tenantId"))
    else if IsNullOrWhiteSpace(username) then Err(Missing("username"))
    else Ok(EmailDataSource(name.value, mailFolder, username.value, client, None))
  }

  /** The constructor with `mailFolder` left to its default. */
  function NewEmailDataSourceInInbox(name: Option<string>, clientId: Option<string>,
                                     clientSecret: Option<string>, tenantId: Option<string>,
                                     username: Option<string>, client: GraphServer)
    : (r: Result<EmailDataSource, Error>)
    ensures r.Ok? ==> r.value.mailFolder == Some("Inbox")
  {
    NewEmailDataSource(name, clientId, clientSecret, tenantId, username, Some(DefaultMailFolder), client)
  }

  function FolderListingRequests(ls: seq<FolderRequest>): (rs: seq<GraphRequest>)
    ensures |rs| == |ls|
    ensures forall i :: 0 <= i < |ls| ==> rs[i] == ChildFoldersQuery(ls[i])
  {
    seq(|ls|, i requires 0 <= i < |ls| => ChildFoldersQuery(ls[i]))
  }

  /** `GetMailBoxRequest()`: resolves the folder only while the cache is
      null, and stores the result when resolution succeeds; a failed
      resolution leaves the cache null. */
  function GetMailBoxRequest(ds: EmailDataSource): (c: Call<FolderRequest>)
    ensures ds.mailboxRequest.Some? ==> c == Call(Ok(ds.mailboxRequest.value), ds, [])
    ensures ds.mailboxRequest.None? ==>
              var w := BuildMailboxPath(Some(ds.client), ds.mailFolder, Some(ds.username));
              && c.result == w.result
              && c.requests == FolderListingRequests(w.listings)
    ensures c.result.Ok? ==> c.source == ds.(mailboxRequest := Some(c.result.value))
    ensures c.result.Err? ==> c.source == ds
  {
    if ds.mailboxRequest.Some? then Call(Ok(ds.mailboxRequest.value), ds, [])
    else
      var w := BuildMailboxPath(Some(ds.client), ds.mailFolder, Some(ds.username));
      var source := if w.result.Ok? then ds.(mailboxRequest := Some(w.result.value)) else ds;
      Call(w.result, source, FolderListingRequests(w.listings))
  }

  /** The cache is write-once: after a successful resolution every later call
      returns the same request chain and sends nothing. */
  lemma MailBoxRequestCached(ds: EmailDataSource)
    ensures var c := GetMailBoxRequest(ds);
            c.result.Ok? ==> GetMailBoxRequest(c.source) == Call(c.result, c.source, [])
  {
  }

  // ---------------------------------------------------------------------
  // Expanding messages into attachments

  /** Kept by `GetAttachmentsAsync`: a file attachment that is not inline. */
  predicate IsKept(a: Attachment) {
    && a.ServerAttachment?
    && (a.isInline.None? || !a.isInline.value)
    && a.odataType == Some(FileAttachmentType)
  }

  /** `GetEmailBodyFilename(message)` */
  function EmailBodyFilename(m: Message): (name: string)
    ensures name == "EmailBody.html" <==> m.body.contentType == Some(HtmlBody)
    ensures name == "EmailBody.html" || name == "EmailBody.txt"
  {
    var fileName := "EmailBody";
    if m.body.contentType == Some(HtmlBody) then fileName + ".html" else fileName + ".txt"
  }

  /** The `EmailBodyAttachment` manufactured from a message's body. */
  function BodyAttachment(m: Message): Attachment {
    var bodyBytes := Utf8(m.body.content);
    EmailBodyAttachment(m.id + BodyIdSuffix, EmailBodyFilename(m), Some(BodyContentType),
                        |bodyBytes|, m.receivedDateTime, bodyBytes)
  }

  /** A (message, attachment) pair as `GetAttachmentsAsync` yields it. */
  datatype Candidate = Candidate(message: Message, attachment: Attachment)

  /** The non-inline file attachments of a listing, in server order. */
  function Kept(listing: seq<ListedAttachment>): seq<ListedAttachment> {
    Where(listing, (a: ListedAttachment) => IsKept(a))
  }

  /** Only non-inline file attachments of the listing are kept, and every
      one of them is. */
  lemma KeptExactly(listing: seq<ListedAttachment>)
    ensures forall i :: 0 <= i < |Kept(listing)| ==> Kept(listing)[i] in listing && IsKept(Kept(listing)[i])
    ensures forall i :: 0 <= i < |listing| && IsKept(listing[i]) ==> listing[i] in Kept(listing)
  {
    WhereMembers(listing, (a: ListedAttachment) => IsKept(a));
  }

  /** One message's group: its kept attachments, then its body. */
  function ExpandMessage(m: Message, listing: seq<ListedAttachment>): (cs: seq<Candidate>)
    ensures |cs| == |Kept(listing)| + 1
  {
    seq(|Kept(listing)|, i requires 0 <= i < |Kept(listing)| => Candidate(m, Kept(listing)[i]))
    + [Candidate(m, BodyAttachment(m))]
  }

  /** What a message's group holds: every pair carries the message; all but
      the last are the kept attachments in server order, none of them a body;
      the last is the body attachment, with its id, name, type, size and
      timestamp derived from the message. */
  lemma ExpandMessageShape(m: Message, listing: seq<ListedAttachment>)
    ensures var cs := ExpandMessage(m, listing);
            var body := cs[|cs| - 1].attachment;
            && (forall i :: 0 <= i < |cs| ==> cs[i].message == m)
            && (forall i :: 0 <= i < |cs| - 1 ==>
                  cs[i].attachment == Kept(listing)[i] && !cs[i].attachment.EmailBodyAttachment?)
            && body.EmailBodyAttachment?
            && body.id == m.id + "-email-body"
            && body.contentType == Some("email-body")
            && body.bodyContent == Utf8(m.body.content)
            && body.size == |Utf8(m.body.content)|
            && body.lastModifiedDateTime == m.receivedDateTime
            && (body.name == "EmailBody.html" <==> m.body.contentType == Some(HtmlBody))
            && (body.name == "EmailBody.html" || body.name == "EmailBody.txt")
  {
  }

  /** The pairs `GetAttachmentsAsync` yields for a batch, group after group,
      or `None` when a listing fails. */
  function Candidates(server: GraphServer, user: string, messages: seq<Message>): Option<seq<Candidate>> {
    if messages == [] then Some([])
    else match ListAttachments(server, user, messages[0].id)
      case Err(_) => None
      case Ok(listing) =>
        match Candidates(server, user, messages[1..])
        case None => None
        case Some(rest) => Some(ExpandMessage(messages[0], listing) + rest)
  }

  function CountBodies(cs: seq<Candidate>): nat {
    if cs == [] then 0
    else (if cs[0].attachment.EmailBodyAttachment? then 1 else 0) + CountBodies(cs[1..])
  }

  lemma {:induction false} CountBodiesAppend(xs: seq<Candidate>, ys: seq<Candidate>)
    ensures CountBodies(xs + ys) == CountBodies(xs) + CountBodies(ys)
  {
    if xs == [] {
      assert xs + ys == ys;
    } else {
      assert (xs + ys)[1..] == xs[1..] + ys;
      CountBodiesAppend(xs[1..], ys);
    }
  }

  lemma {:induction false} CountBodiesKept(cs: seq<Candidate>)
    requires forall i :: 0 <= i < |cs| ==> !cs[i].attachment.EmailBodyAttachment?
    ensures CountBodies(cs) == 0
  {
    if cs != [] {
      CountBodiesKept(cs[1..]);
    }
  }

  /** Every message contributes exactly one body attachment, whether or not
      it has attachments of its own, and at least one pair. */
  lemma {:induction false} OneBodyPerMessage(server: GraphServer, user: string, messages: seq<Message>)
    requires Candidates(server, user, messages).Some?
    ensures CountBodies(Candidates(server, user, messages).value) == |messages|
    ensures |Candidates(server, user, messages).value| >= |messages|
  {
    if messages != [] {
      var m := messages[0];
      var listing := ListAttachments(server, user, m.id).value;
      var cs := ExpandMessage(m, listing);
      OneBodyPerMessage(server, user, messages[1..]);
      ExpandMessageShape(m, listing);
      var k := |Kept(listing)|;
      assert cs == cs[..k] + [cs[k]];
      CountBodiesKept(cs[..k]);
      CountBodiesAppend(cs[..k], [cs[k]]);
      CountBodiesAppend(cs, Candidates(server, user, messages[1..]).value);
    }
  }

  // ---------------------------------------------------------------------
  // Materializing one pair

  /** `ReadAsync(buffer)` on a memory stream: copies from the stream's
      current position into `buffer` and returns the count; the stream's
      own content does not change. */
  function ReadAsync(stream: seq<byte>, position: nat, buffer: seq<byte>): (r: (nat, seq<byte>))
    ensures r.0 <= |buffer| && |r.1| == |buffer|
    ensures position >= |stream| ==> r.0 == 0 && r.1 == buffer
  {
    var available := if position < |stream| then |stream| - position else 0;
    var n := if available < |buffer| then available else |buffer|;
    if n == 0 then (0, buffer) else (n, stream[position..position + n] + buffer[n..])
  }

  /** `GetEmailBodyAttachmentMemoryStream` as written: a fresh, empty stream
      is READ into the body buffer, so the item stays empty. */
  function EmailBodyItemAsWritten(a: Attachment, m: Message): (r: Result<AttachmentMemoryStream, Error>)
    requires a.EmailBodyAttachment?
    ensures r.Ok? && r.value.content == []
  {
    match NewAttachmentMemoryStream(Some(a), Some(m))
    case Err(e) => Err(e)
    case Ok(stream) =>
      var _ := ReadAsync(stream.content, 0, a.bodyContent);
      Ok(stream)
  }

  /** The body item as evidently intended: the stream holds the body bytes. */
  function EmailBodyItem(a: Attachment, m: Message): (r: Result<AttachmentMemoryStream, Error>)
    requires a.EmailBodyAttachment?
    ensures r.Ok? && r.value.content == a.bodyContent
    ensures r.value.key == (m.id, a.id) && r.value.attachmentInfo == a && r.value.messageInfo == m
  {
    match NewAttachmentMemoryStream(Some(a), Some(m))
    case Err(e) => Err(e)
    case Ok(stream) => Ok(stream.(content := a.bodyContent))
  }

  /** As written, any non-empty body is lost: the item of a message whose body
      text is not empty has no content, although the body attachment carries
      the body's bytes. */
  lemma BodyContentLostAsWritten(m: Message)
    requires m.body.content != ""
    ensures EmailBodyItemAsWritten(BodyAttachment(m), m).value.content
            != BodyAttachment(m).bodyContent
  {
  }

  /** As intended, the body item of a message holds the UTF-8 bytes of its
      body text under the key (message id, message id + "-email-body"). */
  lemma BodyItemHoldsBody(m: Message)
    ensures var item := EmailBodyItem(BodyAttachment(m), m).value;
            && item.content == Utf8(m.body.content)
            && item.key == (m.id, m.id + "-email-body")
  {
  }

  /** `GetAttachmentMemoryStreamAsync`: downloads the attachment's content. */
  function DownloadItem(ds: EmailDataSource, a: Attachment, m: Message): (f: Fetch<AttachmentMemoryStream>)
    ensures f.requests == [ContentDownload(ds.username, m.id, a.id)]
    ensures DownloadContent(ds.client, ds.username, m.id, a.id).Err? ==>
              f.result == Err(DownloadContent(ds.client, ds.username, m.id, a.id).error)
  {
    var stream := NewAttachmentMemoryStream(Some(a), Some(m)).value;
    match DownloadContent(ds.client, ds.username, m.id, a.id)
    case Err(e) => Fetch(Err(e), [ContentDownload(ds.username, m.id, a.id)])
    case Ok(bytes) => Fetch(Ok(stream.(content := bytes)), [ContentDownload(ds.username, m.id, a.id)])
  }

  /** `GetItemAsync(message, attachment)`: null checks, then a body
      attachment is wrapped with no request and any other is downloaded with
      exactly one request. */
  function GetItem(ds: EmailDataSource, message: Option<Message>, attachment: Option<Attachment>)
    : (f: Fetch<AttachmentMemoryStream>)
    ensures attachment.None? ==> f == Fetch(Err(NullArgument("attachment")), [])
    ensures attachment.Some? && message.None? ==> f == Fetch(Err(NullArgument("message")), [])
    ensures attachment.Some? && message.Some? ==>
              var a, m := attachment.value, message.value;
              && (f.result.Ok? ==> f.result.value.key == (m.id, a.id)
                                   && f.result.value.attachmentInfo == a
                                   && f.result.value.messageInfo == m)
              && (a.EmailBodyAttachment? ==>
                    f.requests == [] && f.result.Ok? && f.result.value.content == a.bodyContent)
              && (a.ServerAttachment? ==>
                    && f.requests == [ContentDownload(ds.username, m.id, a.id)]
                    && (f.result.Ok? <==> DownloadContent(ds.client, ds.username, m.id, a.id).Ok?)
                    && (f.result.Err? ==>
                          f.result == Err(DownloadContent(ds.client, ds.username, m.id, a.id).error))
                    && (f.result.Ok? ==>
                          f.result.value.content == DownloadContent(ds.client, ds.username, m.id, a.id).value))
  {
    if attachment.None? then Fetch(Err(NullArgument("attachment")), [])
    else if message.None? then Fetch(Err(NullArgument("message")), [])
    else if attachment.value.EmailBodyAttachment? then
      Fetch(EmailBodyItem(attachment.value, message.value), [])
    else DownloadItem(ds, attachment.value, message.value)
  }

  /** The requests materializing these pairs sends: one download per
      attachment that is not a body, in order. */
  function Downloads(ds: EmailDataSource, cs: seq<Candidate>): seq<GraphRequest> {
    if cs == [] then []
    else (if cs[0].attachment.EmailBodyAttachment? then []
          else [ContentDownload(ds.username, cs[0].message.id, cs[0].attachment.id)])
         + Downloads(ds, cs[1..])
  }

  /** The yield loop over one group: each pair is materialized in order, and
      the first failure ends the enumeration. */
  function MaterializeAll(ds: EmailDataSource, cs: seq<Candidate>): (f: Fetch<seq<AttachmentMemoryStream>>)
    ensures f.result.Ok? ==>
              && |f.result.value| == |cs|
              && f.requests == Downloads(ds, cs)
              && forall i :: 0 <= i < |cs| ==>
                   GetItem(ds, Some(cs[i].message), Some(cs[i].attachment)).result == Ok(f.result.value[i])
  {
    if cs == [] then Fetch(Ok([]), [])
    else
      var first := GetItem(ds, Some(cs[0].message), Some(cs[0].attachment));
      if first.result.Err? then Fetch(Err(first.result.error), first.requests)
      else
        var rest := MaterializeAll(ds, cs[1..]);
        var items := if rest.result.Ok? then Ok([first.result.value] + rest.result.value)
                     else Err(rest.result.error);
        Fetch(items, first.requests + rest.requests)
  }

  /** The pair is materialized without an error. */
  predicate ItemOk(ds: EmailDataSource, c: Candidate) {
    GetItem(ds, Some(c.message), Some(c.attachment)).result.Ok?
  }

  /** The position of the first pair that fails to materialize, or the
      number of pairs when none does. */
  function FirstFailedPair(ds: EmailDataSource, cs: seq<Candidate>): (k: nat)
    ensures k <= |cs|
  {
    if cs == [] || !ItemOk(ds, cs[0]) then 0 else 1 + FirstFailedPair(ds, cs[1..])
  }

  /** Materializing one pair sends what `Downloads` counts for it. */
  lemma GetItemRequests(ds: EmailDataSource, c: Candidate)
    ensures GetItem(ds, Some(c.message), Some(c.attachment)).requests == Downloads(ds, [c])
  {
    assert [c][1..] == [];
  }

  /** Every pair before the first failing one materializes, and the pair
      at that position, if any, fails. */
  lemma {:induction false} FirstFailedPairIsFirst(ds: EmailDataSource, cs: seq<Candidate>)
    ensures var k := FirstFailedPair(ds, cs);
            && (forall j :: 0 <= j < k ==> ItemOk(ds, cs[j]))
            && (k < |cs| ==> !ItemOk(ds, cs[k]))
  {
    if cs != [] && ItemOk(ds, cs[0]) {
      FirstFailedPairIsFirst(ds, cs[1..]);
      var k := FirstFailedPair(ds, cs);
      forall j | 1 <= j < k
        ensures ItemOk(ds, cs[j])
      {
        assert cs[j] == cs[1..][j - 1];
      }
      if k < |cs| {
        assert cs[k] == cs[1..][k - 1];
      }
    }
  }

  /** How the yield loop over a group ends: it succeeds exactly when no
      pair fails; otherwise it raises the first failing pair's error
      unchanged, after the downloads of the pairs up to and including it. */
  lemma {:induction false} MaterializeStops(ds: EmailDataSource, cs: seq<Candidate>)
    ensures var f := MaterializeAll(ds, cs);
            var k := FirstFailedPair(ds, cs);
            && (f.result.Ok? <==> k == |cs|)
            && (f.result.Err? ==>
                  && k < |cs|
                  && GetItem(ds, Some(cs[k].message), Some(cs[k].attachment)).result == Err(f.result.error)
                  && f.requests == Downloads(ds, cs[..k + 1]))
  {
    if cs != [] {
      var c := cs[0];
      GetItemRequests(ds, c);
      if !ItemOk(ds, c) {
        assert cs[..1] == [c];
      } else {
        var rest := MaterializeAll(ds, cs[1..]);
        MaterializeStops(ds, cs[1..]);
        var k := FirstFailedPair(ds, cs[1..]);
        if rest.result.Err? {
          assert cs[k + 1] == cs[1..][k];
          assert cs[..k + 2] == [c] + cs[1..][..k + 1];
          DownloadsAppend(ds, [c], cs[1..][..k + 1]);
        }
      }
    }
  }

  // ---------------------------------------------------------------------
  // Enumeration

  /** The `await foreach` over `GetAttachmentsAsync(messages)`: per message,
      list its attachments, then materialize its group before the next
      message is listed; the first failure ends the enumeration. */
  function GroupsFor(ds: EmailDataSource, folder: FolderRequest, messages: seq<Message>)
    : Fetch<seq<AttachmentMemoryStream>>
  {
    if messages == [] then Fetch(Ok([]), [])
    else
      var group := MessageGroup(ds, folder, messages[0]);
      if group.result.Err? then group
      else
        var rest := GroupsFor(ds, folder, messages[1..]);
        var items := if rest.result.Ok? then Ok(group.result.value + rest.result.value)
                     else Err(rest.result.error);
        Fetch(items, group.requests + rest.requests)
  }

  /** One message's turn: its attachments query, then, when the listing
      succeeds, the yield loop over its group. */
  function MessageGroup(ds: EmailDataSource, folder: FolderRequest, m: Message): Fetch<seq<AttachmentMemoryStream>> {
    var q := AttachmentsQuery(folder, m.id);
    match ListAttachments(ds.client, ds.username, m.id)
    case Err(e) => Fetch(Err(e), [q])
    case Ok(listing) =>
      var group := MaterializeAll(ds, ExpandMessage(m, listing));
      Fetch(group.result, [q] + group.requests)
  }

  /** How one message's turn fails: either its attachments listing fails,
      and nothing follows the query, or the first failing pair of its group
      raises its own error after the downloads up to and including it. */
  lemma MessageGroupFails(ds: EmailDataSource, folder: FolderRequest, m: Message)
    requires MessageGroup(ds, folder, m).result.Err?
    ensures var g := MessageGroup(ds, folder, m);
            var q := AttachmentsQuery(folder, m.id);
            var listing := ListAttachments(ds.client, ds.username, m.id);
            && (listing.Err? ==> g == Fetch(Err(listing.error), [q]))
            && (listing.Ok? ==>
                  var cs := ExpandMessage(m, listing.value);
                  var k := FirstFailedPair(ds, cs);
                  && k < |cs|
                  && GetItem(ds, Some(cs[k].message), Some(cs[k].attachment)).result == Err(g.result.error)
                  && g.requests == [q] + Downloads(ds, cs[..k + 1]))
  {
    var listing := ListAttachments(ds.client, ds.username, m.id);
    if listing.Ok? {
      MaterializeStops(ds, ExpandMessage(m, listing.value));
    }
  }

  /** The position of the first message whose turn fails, or the number of
      messages when none does. */
  function FirstFailedMessage(ds: EmailDataSource, folder: FolderRequest, messages: seq<Message>): (k: nat)
    ensures k <= |messages|
  {
    if messages == [] || MessageGroup(ds, folder, messages[0]).result.Err? then 0
    else 1 + FirstFailedMessage(ds, folder, messages[1..])
  }

  /** The requests of the turns of `messages`, one after another. */
  function GroupTraces(ds: EmailDataSource, folder: FolderRequest, messages: seq<Message>): seq<GraphRequest> {
    if messages == [] then []
    else MessageGroup(ds, folder, messages[0]).requests + GroupTraces(ds, folder, messages[1..])
  }

  /** Every message before the first failing one completes its turn, and
      the message at that position, if any, fails. */
  lemma {:induction false} FirstFailedMessageIsFirst(ds: EmailDataSource, folder: FolderRequest, messages: seq<Message>)
    ensures var k := FirstFailedMessage(ds, folder, messages);
            && (forall j :: 0 <= j < k ==> MessageGroup(ds, folder, messages[j]).result.Ok?)
            && (k < |messages| ==> MessageGroup(ds, folder, messages[k]).result.Err?)
  {
    if messages != [] && MessageGroup(ds, folder, messages[0]).result.Ok? {
      FirstFailedMessageIsFirst(ds, folder, messages[1..]);
      var k := FirstFailedMessage(ds, folder, messages);
      forall j | 1 <= j < k
        ensures MessageGroup(ds, folder, messages[j]).result.Ok?
      {
        assert messages[j] == messages[1..][j - 1];
      }
      if k < |messages| {
        assert messages[k] == messages[1..][k - 1];
      }
    }
  }

  /** How the enumeration ends: it succeeds exactly when every message's
      turn does; otherwise it raises the first failing turn's error
      unchanged. */
  lemma {:induction false} GroupsForStops(ds: EmailDataSource, folder: FolderRequest, messages: seq<Message>)
    ensures var f := GroupsFor(ds, folder, messages);
            var k := FirstFailedMessage(ds, folder, messages);
            && (f.result.Ok? <==> k == |messages|)
            && (f.result.Err? ==> k < |messages| && f.result == MessageGroup(ds, folder, messages[k]).result)
  {
    if messages != [] && MessageGroup(ds, folder, messages[0]).result.Ok? {
      GroupsForStops(ds, folder, messages[1..]);
      var k := FirstFailedMessage(ds, folder, messages[1..]);
      if k < |messages| - 1 {
        assert messages[k + 1] == messages[1..][k];
      }
    }
  }

  /** What a successful enumeration sends: every message's turn, in order. */
  lemma {:induction false} GroupsForTraceOk(ds: EmailDataSource, folder: FolderRequest, messages: seq<Message>)
    requires GroupsFor(ds, folder, messages).result.Ok?
    ensures GroupsFor(ds, folder, messages).requests == GroupTraces(ds, folder, messages)
  {
    if messages != [] {
      GroupsForTraceOk(ds, folder, messages[1..]);
    }
  }

  /** What a failed enumeration sends: the turns of the messages up to and
      including the first failing one, in order; no message after it is
      listed. */
  lemma {:induction false} GroupsForTraceErr(ds: EmailDataSource, folder: FolderRequest, messages: seq<Message>)
    requires GroupsFor(ds, folder, messages).result.Err?
    ensures FirstFailedMessage(ds, folder, messages) < |messages|
    ensures GroupsFor(ds, folder, messages).requests
            == GroupTraces(ds, folder, messages[..FirstFailedMessage(ds, folder, messages) + 1])
  {
    var m := messages[0];
    var g := MessageGroup(ds, folder, m);
    if g.result.Err? {
      PrefixOfOne(messages);
      assert FirstFailedMessage(ds, folder, messages) == 0;
      assert GroupsFor(ds, folder, messages).requests == g.requests;
      assert GroupTraces(ds, folder, [m]) == g.requests + GroupTraces(ds, folder, []);
      assert messages[..FirstFailedMessage(ds, folder, messages) + 1] == [m];
    } else {
      var rest := messages[1..];
      GroupsForTraceErr(ds, folder, rest);
      var k := FirstFailedMessage(ds, folder, rest);
      assert FirstFailedMessage(ds, folder, messages) == k + 1;
      assert GroupsFor(ds, folder, messages).requests == g.requests + GroupsFor(ds, folder, rest).requests;
      var upTo := messages[..k + 2];
      PrefixTail(messages, k + 2);
      assert GroupTraces(ds, folder, upTo) == g.requests + GroupTraces(ds, folder, rest[..k + 1]);
      assert messages[..FirstFailedMessage(ds, folder, messages) + 1] == upTo;
    }
  }

  /** A non-empty prefix starts with the sequence's head, and its tail is a
      prefix of the sequence's tail. */
  lemma PrefixTail<T>(xs: seq<T>, n: nat)
    requires 0 < n <= |xs|
    ensures xs[..n][0] == xs[0] && xs[..n][1..] == xs[1..][..n - 1]
  {
  }

  lemma PrefixOfOne<T>(xs: seq<T>)
    requires xs != []
    ensures xs[..1] == [xs[0]] && [xs[0]][1..] == []
  {
  }

  /** A successful enumeration yields one item per pair of the batch, in
      order, each the item `GetItemAsync` makes of that pair; a failed
      attachment listing fails the enumeration. */
  lemma {:induction false} GroupsForItems(ds: EmailDataSource, folder: FolderRequest, messages: seq<Message>)
    ensures var f := GroupsFor(ds, folder, messages);
            && (Candidates(ds.client, ds.username, messages).None? ==> f.result.Err?)
            && (f.result.Ok? ==>
                  && Candidates(ds.client, ds.username, messages).Some?
                  && var cs := Candidates(ds.client, ds.username, messages).value;
                  && |f.result.value| == |cs|
                  && forall i :: 0 <= i < |cs| ==>
                       GetItem(ds, Some(cs[i].message), Some(cs[i].attachment)).result == Ok(f.result.value[i]))
  {
    if messages != [] {
      var m := messages[0];
      var f := GroupsFor(ds, folder, messages);
      GroupsForItems(ds, folder, messages[1..]);
      if ListAttachments(ds.client, ds.username, m.id).Ok? {
        var cs := ExpandMessage(m, ListAttachments(ds.client, ds.username, m.id).value);
        var group := MaterializeAll(ds, cs);
        var rest := GroupsFor(ds, folder, messages[1..]);
        if f.result.Ok? {
          var restCs := Candidates(ds.client, ds.username, messages[1..]).value;
          var all := Candidates(ds.client, ds.username, messages).value;
          assert all == cs + restCs;
          assert f.result.value == group.result.value + rest.result.value;
          forall i | 0 <= i < |all|
            ensures GetItem(ds, Some(all[i].message), Some(all[i].attachment)).result == Ok(f.result.value[i])
          {
            if i < |cs| {
              assert all[i] == cs[i];
            } else {
              assert all[i] == restCs[i - |cs|];
            }
          }
        }
      }
    }
  }

  predicate IsListing(r: GraphRequest) { r.AttachmentsQuery? }
  predicate IsDownload(r: GraphRequest) { r.ContentDownload? }

  /** One attachments query per message of the batch, in order. */
  function ListingsOf(folder: FolderRequest, messages: seq<Message>): (rs: seq<GraphRequest>)
    ensures |rs| == |messages|
    ensures forall i :: 0 <= i < |messages| ==> rs[i] == AttachmentsQuery(folder, messages[i].id)
  {
    if messages == [] then [] else [AttachmentsQuery(folder, messages[0].id)] + ListingsOf(folder, messages[1..])
  }

  lemma {:induction false} DownloadsOnly(ds: EmailDataSource, cs: seq<Candidate>)
    ensures Where(Downloads(ds, cs), IsListing) == []
    ensures Where(Downloads(ds, cs), IsDownload) == Downloads(ds, cs)
  {
    if cs != [] {
      var head := if cs[0].attachment.EmailBodyAttachment? then []
                  else [ContentDownload(ds.username, cs[0].message.id, cs[0].attachment.id)];
      DownloadsOnly(ds, cs[1..]);
      WhereAppend(head, Downloads(ds, cs[1..]), IsListing);
      WhereAppend(head, Downloads(ds, cs[1..]), IsDownload);
    }
  }

  lemma {:induction false} DownloadsAppend(ds: EmailDataSource, xs: seq<Candidate>, ys: seq<Candidate>)
    ensures Downloads(ds, xs + ys) == Downloads(ds, xs) + Downloads(ds, ys)
  {
    if xs == [] {
      assert xs + ys == ys;
    } else {
      assert (xs + ys)[1..] == xs[1..] + ys;
      DownloadsAppend(ds, xs[1..], ys);
    }
  }

  /** The trace of a successful enumeration holds exactly one attachments
      query per message, in message order. */
  lemma {:induction false} GroupsForListings(ds: EmailDataSource, folder: FolderRequest, messages: seq<Message>)
    requires GroupsFor(ds, folder, messages).result.Ok?
    ensures Where(GroupsFor(ds, folder, messages).requests, IsListing) == ListingsOf(folder, messages)
  {
    if messages != [] {
      var m := messages[0];
      var q := AttachmentsQuery(folder, m.id);
      GroupsForUnfold(ds, folder, messages);
      var cs := ExpandMessage(m, ListAttachments(ds.client, ds.username, m.id).value);
      GroupsForListings(ds, folder, messages[1..]);
      DownloadsOnly(ds, cs);
      TraceConsListings(q, Downloads(ds, cs), GroupsFor(ds, folder, messages[1..]).requests);
    }
  }

  /** The trace of a successful enumeration holds exactly one content
      download per pair that is not a body, in pair order. */
  lemma {:induction false} GroupsForDownloads(ds: EmailDataSource, folder: FolderRequest, messages: seq<Message>)
    requires GroupsFor(ds, folder, messages).result.Ok?
    ensures Candidates(ds.client, ds.username, messages).Some?
    ensures Where(GroupsFor(ds, folder, messages).requests, IsDownload)
            == Downloads(ds, Candidates(ds.client, ds.username, messages).value)
  {
    if messages != [] {
      var m := messages[0];
      var q := AttachmentsQuery(folder, m.id);
      GroupsForUnfold(ds, folder, messages);
      CandidatesUnfold(ds, folder, messages);
      var cs := ExpandMessage(m, ListAttachments(ds.client, ds.username, m.id).value);
      var restCs := Candidates(ds.client, ds.username, messages[1..]).value;
      GroupsForDownloads(ds, folder, messages[1..]);
      DownloadsOnly(ds, cs);
      TraceConsDownloads(q, Downloads(ds, cs), GroupsFor(ds, folder, messages[1..]).requests);
      DownloadsAppend(ds, cs, restCs);
    }
  }

  /** Splitting a trace that starts with one listing and then downloads. */
  lemma TraceConsListings(q: GraphRequest, downloads: seq<GraphRequest>, rest: seq<GraphRequest>)
    requires q.AttachmentsQuery? && Where(downloads, IsListing) == []
    ensures Where([q] + downloads + rest, IsListing) == [q] + Where(rest, IsListing)
  {
    WhereSingle(q, IsListing);
    WhereAppend3([q], downloads, rest, IsListing);
    assert Where([q], IsListing) == [q];
    assert [q] + [] == [q];
  }

  lemma TraceConsDownloads(q: GraphRequest, downloads: seq<GraphRequest>, rest: seq<GraphRequest>)
    requires q.AttachmentsQuery? && Where(downloads, IsDownload) == downloads
    ensures Where([q] + downloads + rest, IsDownload) == downloads + Where(rest, IsDownload)
  {
    WhereSingle(q, IsDownload);
    WhereAppend3([q], downloads, rest, IsDownload);
    assert Where([q], IsDownload) == [];
    assert [] + downloads == downloads;
  }

  /** One step of a successful enumeration: the first message's listing,
      its group's downloads, then the rest. */
  lemma GroupsForUnfold(ds: EmailDataSource, folder: FolderRequest, messages: seq<Message>)
    requires messages != [] && GroupsFor(ds, folder, messages).result.Ok?
    ensures var m := messages[0];
            && ListAttachments(ds.client, ds.username, m.id).Ok?
            && var cs := ExpandMessage(m, ListAttachments(ds.client, ds.username, m.id).value);
            && GroupsFor(ds, folder, messages[1..]).result.Ok?
            && GroupsFor(ds, folder, messages).requests
               == [AttachmentsQuery(folder, m.id)] + Downloads(ds, cs) + GroupsFor(ds, folder, messages[1..]).requests
  {
  }

  /** The same step on the pairs: the first message's group, then the rest. */
  lemma CandidatesUnfold(ds: EmailDataSource, folder: FolderRequest, messages: seq<Message>)
    requires messages != [] && GroupsFor(ds, folder, messages).result.Ok?
    ensures var m := messages[0];
            && ListAttachments(ds.client, ds.username, m.id).Ok?
            && Candidates(ds.client, ds.username, messages[1..]).Some?
            && Candidates(ds.client, ds.username, messages).value
               == ExpandMessage(m, ListAttachments(ds.client, ds.username, m.id).value)
                  + Candidates(ds.client, ds.username, messages[1..]).value
  {
    GroupsForItems(ds, folder, messages[1..]);
  }

  /** `GetItemsAsync(recievedDateRange, pagingOptions)`.  The filter and
      paging options are built first; then the folder is resolved (or taken
      from the cache) and the messages query is sent.  Graph evaluates that
      query: `response` stands for its answer, the messages it returns or the
      error it raises (an unknown root folder, say, surfaces only here).
      Each message is then expanded and materialized in turn. */
  function GetItems(ds: EmailDataSource, range: Option<DateRange>, paging: Option<PagingOptions>,
                    response: Result<seq<Message>, Error>): (c: Call<seq<AttachmentMemoryStream>>)
    ensures c.source.mailboxRequest.Some? ==> c.source == ds.(mailboxRequest := c.source.mailboxRequest)
    ensures ds.mailboxRequest.Some? ==> c.source == ds
    ensures GetMailBoxRequest(ds).result.Err? ==>
              c == Call(GetMailBoxRequest(ds).result.PropagateFailure(), ds, GetMailBoxRequest(ds).requests)
    ensures GetMailBoxRequest(ds).result.Ok? ==> c.source == GetMailBoxRequest(ds).source
  {
    var options := MessagesQueryOptions(range, paging);
    var resolved := GetMailBoxRequest(ds);
    if resolved.result.Err? then Call(Err(resolved.result.error), ds, resolved.requests)
    else
      var folder := resolved.result.value;
      var q := MessagesQuery(folder, options);
      match response
      case Err(e) => Call(Err(e), resolved.source, resolved.requests + [q])
      case Ok(messages) =>
        // `GetAttachmentsAsync` asks for the folder again: now it is cached.
        var again := GetMailBoxRequest(resolved.source);
        var groups := GroupsFor(again.source, again.result.value, messages);
        Call(groups.result, again.source, resolved.requests + [q] + again.requests + groups.requests)
  }

  /** The requests of `GetItemsAsync` after the folder is resolved: one
      messages query carrying the filter and paging options; a failed query
      ends the call with its error; otherwise the enumeration of the returned
      messages follows, and its outcome is the call's. */
  lemma GetItemsTrace(ds: EmailDataSource, range: Option<DateRange>, paging: Option<PagingOptions>,
                      response: Result<seq<Message>, Error>)
    requires GetMailBoxRequest(ds).result.Ok?
    ensures var c := GetItems(ds, range, paging, response);
            var folder := GetMailBoxRequest(ds).result.value;
            var prefix := GetMailBoxRequest(ds).requests;
            var q := MessagesQuery(folder, MessagesQueryOptions(range, paging));
            && (response.Err? ==> c.result == Err(response.error) && c.requests == prefix + [q])
            && (response.Ok? ==>
                  && c.result == GroupsFor(c.source, folder, response.value).result
                  && c.requests == prefix + [q] + GroupsFor(c.source, folder, response.value).requests)
  {
    var resolved := GetMailBoxRequest(ds);
    MailBoxRequestCached(ds);
    var again := GetMailBoxRequest(resolved.source);
    assert again == Call(resolved.result, resolved.source, []);
    if response.Ok? {
      var folder := resolved.result.value;
      var q := MessagesQuery(folder, MessagesQueryOptions(range, paging));
      var groups := GroupsFor(resolved.source, folder, response.value);
      assert resolved.requests + [q] + again.requests + groups.requests == resolved.requests + [q] + groups.requests;
    }
  }

  /** What a successful enumeration yields: one item per pair of the
      response's messages, in order; a body pair's item holds the body bytes
      and a file attachment's item holds its downloaded content, each keyed
      by (message id, attachment id). */
  lemma GetItemsYield(ds: EmailDataSource, range: Option<DateRange>, paging: Option<PagingOptions>,
                      response: Result<seq<Message>, Error>)
    requires GetItems(ds, range, paging, response).result.Ok?
    ensures response.Ok?
    ensures var c := GetItems(ds, range, paging, response);
            var items := c.result.value;
            var messages := response.value;
            && Candidates(ds.client, ds.username, messages).Some?
            && var cs := Candidates(ds.client, ds.username, messages).value;
            && |items| == |cs|
            && CountBodies(cs) == |messages|
            && forall i :: 0 <= i < |cs| ==>
                 && items[i].key == (cs[i].message.id, cs[i].attachment.id)
                 && (cs[i].attachment.EmailBodyAttachment? ==>
                       items[i].content == Utf8(cs[i].message.body.content))
                 && (cs[i].attachment.ServerAttachment? ==>
                       Ok(items[i].content)
                       == DownloadContent(ds.client, ds.username, cs[i].message.id, cs[i].attachment.id))
  {
    var resolved := GetMailBoxRequest(ds);
    GetItemsTrace(ds, range, paging, response);
    GroupsForYield(resolved.source, resolved.result.value, response.value);
    OneBodyPerMessage(ds.client, ds.username, response.value);
  }

  /** What each item of a successful enumeration holds: the key of its pair,
      and either the body's bytes or the server's content for the pair. */
  lemma GroupsForYield(ds: EmailDataSource, folder: FolderRequest, messages: seq<Message>)
    requires GroupsFor(ds, folder, messages).result.Ok?
    ensures Candidates(ds.client, ds.username, messages).Some?
    ensures var items := GroupsFor(ds, folder, messages).result.value;
            var cs := Candidates(ds.client, ds.username, messages).value;
            && |items| == |cs|
            && forall i :: 0 <= i < |cs| ==>
                 && items[i].key == (cs[i].message.id, cs[i].attachment.id)
                 && (cs[i].attachment.EmailBodyAttachment? ==>
                       items[i].content == Utf8(cs[i].message.body.content))
                 && (cs[i].attachment.ServerAttachment? ==>
                       Ok(items[i].content)
                       == DownloadContent(ds.client, ds.username, cs[i].message.id, cs[i].attachment.id))
  {
    var items := GroupsFor(ds, folder, messages).result.value;
    GroupsForItems(ds, folder, messages);
    var cs := Candidates(ds.client, ds.username, messages).value;
    CandidateBodies(ds.client, ds.username, messages);
    forall i | 0 <= i < |cs|
      ensures && items[i].key == (cs[i].message.id, cs[i].attachment.id)
              && (cs[i].attachment.EmailBodyAttachment? ==>
                    items[i].content == Utf8(cs[i].message.body.content))
              && (cs[i].attachment.ServerAttachment? ==>
                    Ok(items[i].content)
                    == DownloadContent(ds.client, ds.username, cs[i].message.id, cs[i].attachment.id))
    {
      var f := GetItem(ds, Some(cs[i].message), Some(cs[i].attachment));
      assert f.result == Ok(items[i]);
    }
  }

  /** Every body pair of a batch is the body attachment of its own message. */
  lemma {:induction false} CandidateBodies(server: GraphServer, user: string, messages: seq<Message>)
    requires Candidates(server, user, messages).Some?
    ensures var cs := Candidates(server, user, messages).value;
            forall i :: 0 <= i < |cs| && cs[i].attachment.EmailBodyAttachment? ==>
              cs[i].attachment == BodyAttachment(cs[i].message)
  {
    if messages != [] {
      var m := messages[0];
      var listing := ListAttachments(server, user, m.id).value;
      ExpandMessageShape(m, listing);
      CandidateBodies(server, user, messages[1..]);
    }
  }

  /** `GetItemsAsync(emailId)`: a blank id is refused before anything else;
      otherwise the message is fetched and its single group enumerated. */
  function GetItemsForEmail(ds: EmailDataSource, emailId: Option<string>): (c: Call<seq<AttachmentMemoryStream>>)
    ensures IsNullOrWhiteSpace(emailId) ==> c == Call(Err(Missing("emailId")), ds, [])
    ensures !IsNullOrWhiteSpace(emailId) && GetMailBoxRequest(ds).result.Err? ==>
              c == Call(GetMailBoxRequest(ds).result.PropagateFailure(), ds, GetMailBoxRequest(ds).requests)
    ensures c.result.Ok? ==> GetMessage(ds.client, ds.username, emailId.value).Ok?
  {
    if IsNullOrWhiteSpace(emailId) then Call(Err(Missing("emailId")), ds, [])
    else
      var resolved := GetMailBoxRequest(ds);
      if resolved.result.Err? then Call(Err(resolved.result.error), ds, resolved.requests)
      else
        var folder := resolved.result.value;
        var q := MessageQuery(folder, emailId.value);
        match GetMessage(ds.client, ds.username, emailId.value)
        case Err(e) => Call(Err(e), resolved.source, resolved.requests + [q])
        case Ok(message) =>
          var again := GetMailBoxRequest(resolved.source);
          var groups := GroupsFor(again.source, again.result.value, [message]);
          Call(groups.result, again.source, resolved.requests + [q] + again.requests + groups.requests)
  }

  /** The requests of `GetItemsAsync(emailId)` after the folder is resolved:
      one message query; a failed fetch ends the call with its error;
      otherwise the message's single turn follows, and its outcome is the
      call's. */
  lemma GetItemsForEmailTrace(ds: EmailDataSource, emailId: Option<string>)
    requires !IsNullOrWhiteSpace(emailId) && GetMailBoxRequest(ds).result.Ok?
    ensures var c := GetItemsForEmail(ds, emailId);
            var folder := GetMailBoxRequest(ds).result.value;
            var prefix := GetMailBoxRequest(ds).requests;
            var q := MessageQuery(folder, emailId.value);
            var fetched := GetMessage(ds.client, ds.username, emailId.value);
            && (fetched.Err? ==> c.result == Err(fetched.error) && c.requests == prefix + [q])
            && (fetched.Ok? ==>
                  && c.result == GroupsFor(c.source, folder, [fetched.value]).result
                  && c.requests == prefix + [q] + GroupsFor(c.source, folder, [fetched.value]).requests)
  {
    var resolved := GetMailBoxRequest(ds);
    MailBoxRequestCached(ds);
    var again := GetMailBoxRequest(resolved.source);
    assert again == Call(resolved.result, resolved.source, []);
    var fetched := GetMessage(ds.client, ds.username, emailId.value);
    if fetched.Ok? {
      var q := MessageQuery(resolved.result.value, emailId.value);
      var groups := GroupsFor(resolved.source, resolved.result.value, [fetched.value]);
      assert resolved.requests + [q] + again.requests + groups.requests == resolved.requests + [q] + groups.requests;
    }
  }

  /** The items of one message: its kept attachments, then its body. */
  lemma GetItemsForEmailYield(ds: EmailDataSource, emailId: Option<string>)
    requires GetItemsForEmail(ds, emailId).result.Ok?
    ensures var m := GetMessage(ds.client, ds.username, emailId.value).value;
            var items := GetItemsForEmail(ds, emailId).result.value;
            && ListAttachments(ds.client, ds.username, m.id).Ok?
            && var kept := Kept(ListAttachments(ds.client, ds.username, m.id).value);
            && |items| == |kept| + 1
            && (forall i :: 0 <= i < |kept| ==> items[i].key == (m.id, kept[i].id))
            && items[|kept|].key == (m.id, m.id + "-email-body")
            && items[|kept|].content == Utf8(m.body.content)
  {
    var m := GetMessage(ds.client, ds.username, emailId.value).value;
    GetItemsForEmailTrace(ds, emailId);
    GroupsForItems(GetMailBoxRequest(ds).source, GetMailBoxRequest(ds).result.value, [m]);
    var listing := ListAttachments(ds.client, ds.username, m.id).value;
    ExpandMessageShape(m, listing);
    assert Candidates(ds.client, ds.username, [m]).value == ExpandMessage(m, listing) + [];
  }

  /** `GetItemAsync((emailId, attachmentId))`: blank halves are refused
      before anything else; otherwise the message and then the attachment
      are fetched and the attachment materialized.  The attachment comes
      from the server's listing, so it is always downloaded. */
  function GetItemByKey(ds: EmailDataSource, emailId: Option<string>, attachmentId: Option<string>)
    : (c: Call<AttachmentMemoryStream>)
    ensures IsNullOrWhiteSpace(emailId) ==> c == Call(Err(Missing("emailId")), ds, [])
    ensures !IsNullOrWhiteSpace(emailId) && IsNullOrWhiteSpace(attachmentId) ==>
              c == Call(Err(Missing("attachmentId")), ds, [])
    ensures c.result.Ok? ==> c.source.mailboxRequest.Some?
    ensures c.result.Ok? ==>
              && GetMessage(ds.client, ds.username, emailId.value).Ok?
              && GetAttachment(ds.client, ds.username, emailId.value, attachmentId.value).Ok?
  {
    if IsNullOrWhiteSpace(emailId) then Call(Err(Missing("emailId")), ds, [])
    else if IsNullOrWhiteSpace(attachmentId) then Call(Err(Missing("attachmentId")), ds, [])
    else
      var resolved := GetMailBoxRequest(ds);
      if resolved.result.Err? then Call(Err(resolved.result.error), ds, resolved.requests)
      else
        var folder := resolved.result.value;
        var q1 := MessageQuery(folder, emailId.value);
        var q2 := AttachmentQuery(folder, emailId.value, attachmentId.value);
        match GetMessage(ds.client, ds.username, emailId.value)
        case Err(e) => Call(Err(e), resolved.source, resolved.requests + [q1])
        case Ok(message) =>
          match GetAttachment(ds.client, ds.username, emailId.value, attachmentId.value)
          case Err(e) => Call(Err(e), resolved.source, resolved.requests + [q1, q2])
          case Ok(attachment) =>
            var f := GetItem(resolved.source, Some(message), Some(attachment));
            Call(f.result, resolved.source, resolved.requests + [q1, q2] + f.requests)
  }

  /** A successful fetch by key resolves the folder, then fetches the
      message, the attachment and its content, in that order; the item is
      keyed by (message id, attachment id) and holds the downloaded bytes. */
  lemma GetItemByKeySuccess(ds: EmailDataSource, emailId: Option<string>, attachmentId: Option<string>)
    requires GetItemByKey(ds, emailId, attachmentId).result.Ok?
    ensures var c := GetItemByKey(ds, emailId, attachmentId);
            var e, a := emailId.value, attachmentId.value;
            && GetMailBoxRequest(ds).result.Ok?
            && GetMessage(ds.client, ds.username, e).Ok?
            && var folder := GetMailBoxRequest(ds).result.value;
            && var id := GetMessage(ds.client, ds.username, e).value.id;
            && c.source == GetMailBoxRequest(ds).source
            && c.requests == GetMailBoxRequest(ds).requests
                             + [MessageQuery(folder, e), AttachmentQuery(folder, e, a), ContentDownload(ds.username, id, a)]
            && c.result.value.key == (id, a)
            && Ok(c.result.value.content) == DownloadContent(ds.client, ds.username, id, a)
  {
    var resolved := GetMailBoxRequest(ds);
    var message := GetMessage(ds.client, ds.username, emailId.value).value;
    var attachment := GetAttachment(ds.client, ds.username, emailId.value, attachmentId.value).value;
    var f := GetItem(resolved.source, Some(message), Some(attachment));
    assert f.requests == [ContentDownload(ds.username, message.id, attachment.id)];
  }

  /** How a fetch by key fails after its argument checks: a failed folder
      resolution leaves the connector as it was; a missing message stops
      after the message request; a missing attachment after the attachment
      request. */
  lemma GetItemByKeyFailures(ds: EmailDataSource, emailId: Option<string>, attachmentId: Option<string>)
    requires !IsNullOrWhiteSpace(emailId) && !IsNullOrWhiteSpace(attachmentId)
    ensures var c := GetItemByKey(ds, emailId, attachmentId);
            GetMailBoxRequest(ds).result.Err? ==>
              c == Call(Err(GetMailBoxRequest(ds).result.error), ds, GetMailBoxRequest(ds).requests)
    ensures var c := GetItemByKey(ds, emailId, attachmentId);
            GetMailBoxRequest(ds).result.Ok? ==>
              var folder := GetMailBoxRequest(ds).result.value;
              var prefix := GetMailBoxRequest(ds).requests;
              var e, a := emailId.value, attachmentId.value;
              && c.source == GetMailBoxRequest(ds).source
              && (GetMessage(ds.client, ds.username, e).Err? ==>
                    c.result == Err(GetMessage(ds.client, ds.username, e).error)
                    && c.requests == prefix + [MessageQuery(folder, e)])
              && (GetMessage(ds.client, ds.username, e).Ok? && GetAttachment(ds.client, ds.username, e, a).Err? ==>
                    c.result == Err(GetAttachment(ds.client, ds.username, e, a).error)
                    && c.requests == prefix + [MessageQuery(folder, e), AttachmentQuery(folder, e, a)])
  {
  }

  /** Asking by key for a body attachment's id is not special-cased: the
      message is fetched, then the id is asked of the server like any other.
      A success therefore holds the server's download, never the message's
      body text; without such an attachment on the server the call fails
      after those two requests. */
  lemma BodyKeyGoesToServer(ds: EmailDataSource, m: Message)
    requires !IsNullOrWhiteSpace(Some(m.id))
    requires GetMailBoxRequest(ds).result.Ok? && GetMessage(ds.client, ds.username, m.id).Ok?
    ensures var bodyId := m.id + "-email-body";
            var c := GetItemByKey(ds, Some(m.id), Some(bodyId));
            var folder := GetMailBoxRequest(ds).result.value;
            var prefix := GetMailBoxRequest(ds).requests;
            && |c.requests| >= |prefix| + 2
            && c.requests[..|prefix| + 2] == prefix + [MessageQuery(folder, m.id), AttachmentQuery(folder, m.id, bodyId)]
            && (c.result.Ok? ==>
                  && GetAttachment(ds.client, ds.username, m.id, bodyId).Ok?
                  && Ok(c.result.value.content)
                     == DownloadContent(ds.client, ds.username, GetMessage(ds.client, ds.username, m.id).value.id, bodyId))
            && (GetAttachment(ds.client, ds.username, m.id, bodyId).Err? ==>
                  c.result.Err? && |c.requests| == |prefix| + 2)
  {
    var bodyId := m.id + "-email-body";
    assert !IsNullOrWhiteSpace(Some(bodyId)) by {
      assert bodyId[|m.id|] == '-';
    }
    GetItemByKeyFailures(ds, Some(m.id), Some(bodyId));
    var c := GetItemByKey(ds, Some(m.id), Some(bodyId));
    var prefix := GetMailBoxRequest(ds).requests;
    if GetAttachment(ds.client, ds.username, m.id, bodyId).Ok? {
      var message := GetMessage(ds.client, ds.username, m.id).value;
      var attachment := GetAttachment(ds.client, ds.username, m.id, bodyId).value;
      var f := GetItem(GetMailBoxRequest(ds).source, Some(message), Some(attachment));
      assert c.requests == prefix + [MessageQuery(GetMailBoxRequest(ds).result.value, m.id),
                                     AttachmentQuery(GetMailBoxRequest(ds).result.value, m.id, bodyId)] + f.requests;
    }
  }

  /** Fetching by key a pair the enumeration yields gives the item the
      enumeration materializes for it. */
  lemma ByKeyAgreesWithEnumeration(ds: EmailDataSource, m: Message, a: ListedAttachment)
    requires !IsNullOrWhiteSpace(Some(m.id)) && !IsNullOrWhiteSpace(Some(a.id))
    requires GetMailBoxRequest(ds).result.Ok?
    requires GetMessage(ds.client, ds.username, m.id) == Ok(m)
    requires GetAttachment(ds.client, ds.username, m.id, a.id) == Ok(a)
    ensures GetItemByKey(ds, Some(m.id), Some(a.id)).result
            == GetItem(GetMailBoxRequest(ds).source, Some(m), Some(a)).result
  {
  }
}

=== FILE: encoding.dfy ===
/** Bytes and `Encoding.UTF8.GetBytes` over Unicode scalar values. */
module Encoding {

  newtype byte = x: int | 0 <= x < 256

  /** The UTF-8 form of one scalar value: one byte below U+0080, two below
      U+0800, three below U+10000, four above. */
  function EncodeScalar(c: char): (bs: seq<byte>)
    ensures 1 <= |bs| <= 4
    ensures |bs| == 1 <==> c as int < 0x80
    ensures |bs| == 1 ==> bs[0] as int == c as int
  {
    var v := c as int;
    if v < 0x80 then [v as byte]
    else if v < 0x800 then [(0xC0 + v / 0x40) as byte, (0x80 + v % 0x40) as byte]
    else if v < 0x1_0000 then
      [(0xE0 + v / 0x1000) as byte, (0x80 + (v / 0x40) % 0x40) as byte, (0x80 + v % 0x40) as byte]
    else
      [(0xF0 + v / 0x4_0000) as byte, (0x80 + (v / 0x1000) % 0x40) as byte,
       (0x80 + (v / 0x40) % 0x40) as byte, (0x80 + v % 0x40) as byte]
  }

  /** `Encoding.UTF8.GetBytes(s)` */
  function Utf8(s: string): (bs: seq<byte>)
    ensures |s| <= |bs| <= 4 * |s|
  {
    if s == [] then [] else EncodeScalar(s[0]) + Utf8(s[1..])
  }
}

=== FILE: errors.dfy ===
/** The exceptions the connectors raise, with the constructor arguments the
    source passes to them.  A .NET `ArgumentException(message, paramName)`
    takes its message first, an `ArgumentNullException(paramName, message)`
    its parameter name first; the model keeps both orders as written. */
module Errors {
  import opened Wrappers

  datatype Error =
    | ArgumentException(message: Option<string>, paramName: Option<string>)
    | ArgumentNullException(paramName: Option<string>, message: Option<string>)
    | InvalidOperationException(reason: string)
      /** Anything a remote collaborator (Graph, SFTP, the file system) raises,
          passed through unmodified; `what` names the failed request. */
    | RemoteError(what: string)

  /** `new ArgumentException("Missing", nameof(p))` */
  function Missing(p: string): Error {
    ArgumentException(Some("Missing"), Some(p))
  }

  /** `new ArgumentNullException("Missing", nameof(p))`: the parameter name
      slot receives "Missing" and the message slot the real name. */
  function MissingNull(p: string): Error {
    ArgumentNullException(Some("Missing"), Some(p))
  }

  /** `new ArgumentNullException(nameof(p))` */
  function NullArgument(p: string): Error {
    ArgumentNullException(Some(p), None)
  }
}

=== FILE: file_source.dfy ===
/** `FileDataSource`: the local-folder connector.  It lists the folder's
    files, selects them by last write time and page, and reads each selected
    file into an item keyed by its full path. */
module FileSource {
  import opened Wrappers
  import opened Errors
  import opened Text
  import opened Timestamps
  import opened DateRanges
  import opened Selection
  import opened LocalDisk
  import opened StreamItems

  /** A connector: its configuration and the disk it reads. */
  datatype FileDataSource = FileDataSource(name: string, localFolder: string, disk: Disk)

  /** A file system access, in the order the connector makes them. */
  datatype DiskAccess = ListFiles(path: string) | OpenRead(path: string)

  /** What a call returns and the accesses it made in order. */
  datatype Reading<T> = Reading(result: Result<T, Error>, accesses: seq<DiskAccess>)

  /** The constructor: the name, then the folder, must not be blank. */
  function NewFileDataSource(name: Option<string>, localFolder: Option<string>, disk: Disk)
    : (r: Result<FileDataSource, Error>)
    ensures IsNullOrWhiteSpace(name) ==> r == Err(Missing("name"))
    ensures (!IsNullOrWhiteSpace(name) && IsNullOrWhiteSpace(localFolder)) ==> r == Err(Missing("localFolder"))
    ensures r.Ok? <==> !IsNullOrWhiteSpace(name) && !IsNullOrWhiteSpace(localFolder)
    ensures r.Ok? ==> r.value == FileDataSource(name.value, localFolder.value, disk)
  {
    if IsNullOrWhiteSpace(name) then Err(Missing("name"))
    else if IsNullOrWhiteSpace(localFolder) then Err(Missing("localFolder"))
    else Ok(FileDataSource(name.value, localFolder.value, disk))
  }

  /** `ReadFileContent(file)`: a null file is refused; otherwise the whole
      file is read into a stream keyed by its full path. */
  function ReadFileContent(ds: FileDataSource, file: Option<FileInfo>): (r: Reading<FileMemoryStream>)
    ensures file.None? ==> r == Reading(Err(NullArgument("file")), [])
    ensures file.Some? ==> r.accesses == [OpenRead(file.value.fullName)]
    ensures file.Some? ==> (r.result.Ok? <==> ReadAll(ds.disk, file.value).Ok?)
    ensures file.Some? && r.result.Err? ==> r.result == Err(ReadAll(ds.disk, file.value).error)
    ensures r.result.Ok? ==> && r.result.value.key == file.value.fullName
                             && r.result.value.fileInfo == file.value
                             && r.result.value.content == ReadAll(ds.disk, file.value).value
  {
    if file.None? then Reading(Err(NullArgument("file")), [])
    else
      var stream := NewFileMemoryStream(file).value;
      match ReadAll(ds.disk, file.value)
      case Err(e) => Reading(Err(e), [OpenRead(file.value.fullName)])
      case Ok(bytes) => Reading(Ok(stream.(content := bytes)), [OpenRead(file.value.fullName)])
  }

  /** The reads of these files, in order. */
  function ReadAccesses(files: seq<FileInfo>): (rs: seq<DiskAccess>)
    ensures |rs| == |files|
    ensures forall i :: 0 <= i < |files| ==> rs[i] == OpenRead(files[i].fullName)
  {
    if files == [] then [] else [OpenRead(files[0].fullName)] + ReadAccesses(files[1..])
  }

  /** `ReadFilesContent(files)`: each file in turn; the first failed read
      ends the enumeration. */
  function ReadFilesContent(ds: FileDataSource, files: seq<FileInfo>): (r: Reading<seq<FileMemoryStream>>)
    ensures r.result.Ok? ==>
              && |r.result.value| == |files|
              && r.accesses == ReadAccesses(files)
              && forall i :: 0 <= i < |files| ==> Ok(r.result.value[i]) == ReadFileContent(ds, Some(files[i])).result
  {
    if files == [] then Reading(Ok([]), [])
    else
      var first := ReadFileContent(ds, Some(files[0]));
      if first.result.Err? then Reading(Err(first.result.error), first.accesses)
      else
        var rest := ReadFilesContent(ds, files[1..]);
        if rest.result.Err? then Reading(Err(rest.result.error), first.accesses + rest.accesses)
        else Reading(Ok([first.result.value] + rest.result.value), first.accesses + rest.accesses)
  }

  /** A failed enumeration stopped at the first file that could not be
      read, after reading the files before it, and raised that read's error
      unchanged. */
  lemma {:induction false} ReadFilesFailure(ds: FileDataSource, files: seq<FileInfo>)
    requires ReadFilesContent(ds, files).result.Err?
    ensures var n := |ReadFilesContent(ds, files).accesses|;
            && 1 <= n <= |files|
            && ReadFilesContent(ds, files).accesses == ReadAccesses(files[..n])
            && (forall j :: 0 <= j < n - 1 ==> ReadAll(ds.disk, files[j]).Ok?)
            && ReadAll(ds.disk, files[n - 1]).Err?
            && ReadFilesContent(ds, files).result == Err(ReadAll(ds.disk, files[n - 1]).error)
  {
    var first := ReadFileContent(ds, Some(files[0]));
    if ReadAll(ds.disk, files[0]).Err? {
      assert files[..1][1..] == [];
      assert ReadFilesContent(ds, files).accesses == first.accesses;
    } else {
      var rest := ReadFilesContent(ds, files[1..]);
      ReadFilesFailure(ds, files[1..]);
      var n := |rest.accesses|;
      assert ReadFilesContent(ds, files).accesses == first.accesses + rest.accesses;
      forall j | 1 <= j < n
        ensures ReadAll(ds.disk, files[j]).Ok?
      {
        assert files[j] == files[1..][j - 1];
      }
      assert files[n] == files[1..][n - 1];
      assert files[..n + 1][1..] == files[1..][..n];
      assert ReadAccesses(files[..n + 1]) == [OpenRead(files[0].fullName)] + ReadAccesses(files[1..][..n]);
    }
  }

  /** `n => n.LastWriteTime` on this disk. */
  function WriteTimes(disk: Disk): FileInfo -> Instant {
    f => LastWriteTime(disk, f)
  }

  /** The files `GetItemsAsync` selects from a listing, step by step as the
      source applies them: the date bounds, then the page. */
  function SelectFiles(ds: FileDataSource, listing: seq<FileInfo>, range: Option<DateRange>,
                       paging: Option<PagingOptions>): seq<FileInfo>
  {
    Paginate(DateFilter(listing, WriteTimes(ds.disk), range), paging)
  }

  /** The selection is one page of the listing's files written strictly
      inside the range, in listing order. */
  lemma SelectFilesWindow(ds: FileDataSource, listing: seq<FileInfo>, range: Option<DateRange>,
                          paging: Option<PagingOptions>)
    ensures SelectFiles(ds, listing, range, paging)
            == Paginate(Where(listing, f => Admits(range, LastWriteTime(ds.disk, f))), paging)
  {
    DateFilterBy(listing, WriteTimes(ds.disk), range, f => Admits(range, LastWriteTime(ds.disk, f)));
  }

  /** Every selected file is a file of the listing written strictly inside
      the range, and there are at most `pageSize` of them. */
  lemma SelectedFilesAdmitted(ds: FileDataSource, listing: seq<FileInfo>, range: Option<DateRange>,
                              paging: Option<PagingOptions>)
    ensures var sel := SelectFiles(ds, listing, range, paging);
            && (forall i :: 0 <= i < |sel| ==> sel[i] in listing && Admits(range, LastWriteTime(ds.disk, sel[i])))
            && (paging.Some? ==> |sel| <= paging.value.pageSize)
  {
    var wanted := f => Admits(range, LastWriteTime(ds.disk, f));
    SelectFilesWindow(ds, listing, range, paging);
    var all := Where(listing, wanted);
    WhereMembers(listing, wanted);
    var sel := SelectFiles(ds, listing, range, paging);
    if paging.Some? {
      PaginateWindow(all, paging.value);
      forall i | 0 <= i < |sel|
        ensures sel[i] in listing && wanted(sel[i])
      {
        assert sel[i] == all[PageStart(|all|, paging.value) + i];
      }
    }
  }

  /** `GetItemsAsync(lastWrittenDateRange, pagingOptions)`: list the folder,
      select, then read each selected file. */
  function GetItems(ds: FileDataSource, range: Option<DateRange>, paging: Option<PagingOptions>)
    : (r: Reading<seq<FileMemoryStream>>)
    ensures |r.accesses| >= 1 && r.accesses[0] == ListFiles(ds.localFolder)
    ensures GetFiles(ds.disk, ds.localFolder).Err? ==> r == Reading(Err(GetFiles(ds.disk, ds.localFolder).error), [ListFiles(ds.localFolder)])
    ensures GetFiles(ds.disk, ds.localFolder).Ok? ==>
              var loaded := ReadFilesContent(ds, SelectFiles(ds, GetFiles(ds.disk, ds.localFolder).value, range, paging));
              && r.result == loaded.result
              && r.accesses == [ListFiles(ds.localFolder)] + loaded.accesses
    ensures r.result.Ok? ==>
              && GetFiles(ds.disk, ds.localFolder).Ok?
              && var sel := SelectFiles(ds, GetFiles(ds.disk, ds.localFolder).value, range, paging);
              && |r.result.value| == |sel|
              && r.accesses == [ListFiles(ds.localFolder)] + ReadAccesses(sel)
              && forall i :: 0 <= i < |sel| ==>
                   && r.result.value[i].key == sel[i].fullName
                   && Ok(r.result.value[i].content) == ReadAll(ds.disk, sel[i])
  {
    match GetFiles(ds.disk, ds.localFolder)
    case Err(e) => Reading(Err(e), [ListFiles(ds.localFolder)])
    case Ok(listing) =>
      var loaded := ReadFilesContent(ds, SelectFiles(ds, listing, range, paging));
      Reading(loaded.result, [ListFiles(ds.localFolder)] + loaded.accesses)
  }

  /** `GetItemAsync(key)`: a blank key is refused before touching the disk;
      otherwise the file at that path is read. */
  function GetItemByKey(ds: FileDataSource, key: Option<string>): (r: Reading<FileMemoryStream>)
    ensures IsNullOrWhiteSpace(key) ==> r == Reading(Err(MissingNull("key")), [])
    ensures !IsNullOrWhiteSpace(key) ==> r.accesses == [OpenRead(key.value)]
    ensures r.result.Ok? ==> && r.result.value.key == key.value
                             && Ok(r.result.value.content) == ReadAll(ds.disk, FileInfo(key.value))
  {
    if IsNullOrWhiteSpace(key) then Reading(Err(MissingNull("key")), [])
    else ReadFileContent(ds, Some(FileInfo(key.value)))
  }

  /** Fetching by key the file an enumeration yielded gives the same item. */
  lemma ByKeyAgreesWithListing(ds: FileDataSource, range: Option<DateRange>, paging: Option<PagingOptions>, i: nat)
    requires GetItems(ds, range, paging).result.Ok?
    requires i < |GetItems(ds, range, paging).result.value|
    requires !IsNullOrWhiteSpace(Some(GetItems(ds, range, paging).result.value[i].key))
    ensures var item := GetItems(ds, range, paging).result.value[i];
            GetItemByKey(ds, Some(item.key)).result == Ok(item)
  {
    var listing := GetFiles(ds.disk, ds.localFolder).value;
    var sel := SelectFiles(ds, listing, range, paging);
    var item := GetItems(ds, range, paging).result.value[i];
    assert ReadFilesContent(ds, sel).result.value[i] == item;
    assert Ok(item) == ReadFileContent(ds, Some(sel[i])).result;
  }
}

=== FILE: ftp_source.dfy ===
/** `FtpDataSource`: the SFTP connector.  Each call opens its own session,
    lists or fetches the remote files, and downloads each selected file into
    an item keyed by its full path. */
module FtpSource {
  import opened Wrappers
  import opened Errors
  import opened Text
  import opened Timestamps
  import opened DateRanges
  import opened Selection
  import opened Sftp
  import opened StreamItems

  /** The port used when the caller names none. */
  const DefaultPort: int := 22

  /** A connector: its configuration and the server at its host and port. */
  datatype FtpDataSource = FtpDataSource(name: string, hostName: string, username: string,
                                         password: string, remoteFolder: string, port: int,
                                         server: SftpServer)

  /** A request the connector sends over its session. */
  datatype SftpRequest =
    | ConnectRequest(username: string)
    | ListRequest(path: string)
    | StatRequest(path: string)
    | DownloadRequest(path: string)

  /** What a call returns and the requests it sent in order. */
  datatype Session<T> = Session(result: Result<T, Error>, requests: seq<SftpRequest>)

  /** The constructor: each required argument, in order, must not be blank;
      the port is stored unchecked. */
  function NewFtpDataSource(name: Option<string>, hostname: Option<string>, username: Option<string>,
                            password: Option<string>, remoteFolder: Option<string>, port: int,
                            server: SftpServer): (r: Result<FtpDataSource, Error>)
    ensures IsNullOrWhiteSpace(name) ==> r == Err(Missing("name"))
    ensures (!IsNullOrWhiteSpace(name) && IsNullOrWhiteSpace(hostname)) ==> r == Err(Missing("hostname"))
    ensures (!IsNullOrWhiteSpace(name) && !IsNullOrWhiteSpace(hostname)
             && IsNullOrWhiteSpace(username)) ==> r == Err(Missing("username"))
    ensures (!IsNullOrWhiteSpace(name) && !IsNullOrWhiteSpace(hostname) && !IsNullOrWhiteSpace(username)
             && IsNullOrWhiteSpace(password)) ==> r == Err(Missing("password"))
    ensures (!IsNullOrWhiteSpace(name) && !IsNullOrWhiteSpace(hostname) && !IsNullOrWhiteSpace(username)
             && !IsNullOrWhiteSpace(password) && IsNullOrWhiteSpace(remoteFolder)) ==> r == Err(Missing("remoteFolder"))
    ensures r.Ok? <==> !IsNullOrWhiteSpace(name) && !IsNullOrWhiteSpace(hostname)
                       && !IsNullOrWhiteSpace(username) && !IsNullOrWhiteSpace(password)
                       && !IsNullOrWhiteSpace(remoteFolder)
    ensures r.Ok? ==> r.value == FtpDataSource(name.value, hostname.value, username.value,
                                               password.value, remoteFolder.value, port, server)
  {
    if IsNullOrWhiteSpace(name) then Err(Missing("name"))
    else if IsNullOrWhiteSpace(hostname) then Err(Missing("hostname"))
    else if IsNullOrWhiteSpace(username) then Err(Missing("username"))
    else if IsNullOrWhiteSpace(password) then Err(Missing("password"))
    else if IsNullOrWhiteSpace(remoteFolder) then Err(Missing("remoteFolder"))
    else Ok(FtpDataSource(name.value, hostname.value, username.value, password.value,
                          remoteFolder.value, port, server))
  }

  /** The constructor with `port` left to its default. */
  function NewFtpDataSourceOnDefaultPort(name: Option<string>, hostname: Option<string>,
                                         username: Option<string>, password: Option<string>,
                                         remoteFolder: Option<string>, server: SftpServer)
    : (r: Result<FtpDataSource, Error>)
    ensures r.Ok? ==> r.value.port == 22
  {
    NewFtpDataSource(name, hostname, username, password, remoteFolder, DefaultPort, server)
  }

  /** `DownloadFileAsync(client, file)`: one download of the file's full
      path into a stream keyed by that path. */
  function DownloadFile(ds: FtpDataSource, file: SftpFile): (s: Session<SftpMemoryStream>)
    ensures s.requests == [DownloadRequest(file.fullName)]
    ensures s.result.Ok? <==> Download(ds.server, file.fullName).Ok?
    ensures s.result.Err? ==> s.result == Err(Download(ds.server, file.fullName).error)
    ensures s.result.Ok? ==> && s.result.value.key == file.fullName
                             && s.result.value.fileInfo == file
                             && s.result.value.content == Download(ds.server, file.fullName).value
  {
    var stream := NewSftpMemoryStream(Some(file)).value;
    match Download(ds.server, file.fullName)
    case Err(e) => Session(Err(e), [DownloadRequest(file.fullName)])
    case Ok(bytes) => Session(Ok(stream.(content := bytes)), [DownloadRequest(file.fullName)])
  }

  /** The downloads of these files, in order. */
  function DownloadRequests(files: seq<SftpFile>): (rs: seq<SftpRequest>)
    ensures |rs| == |files|
    ensures forall i :: 0 <= i < |files| ==> rs[i] == DownloadRequest(files[i].fullName)
  {
    if files == [] then [] else [DownloadRequest(files[0].fullName)] + DownloadRequests(files[1..])
  }

  /** `DownloadFilesAsync(client, files)`: each file in turn; the first
      failed download ends the enumeration. */
  function DownloadFiles(ds: FtpDataSource, files: seq<SftpFile>): (s: Session<seq<SftpMemoryStream>>)
    ensures s.result.Ok? ==>
              && |s.result.value| == |files|
              && s.requests == DownloadRequests(files)
              && forall i :: 0 <= i < |files| ==> Ok(s.result.value[i]) == DownloadFile(ds, files[i]).result
  {
    if files == [] then Session(Ok([]), [])
    else
      var first := DownloadFile(ds, files[0]);
      if first.result.Err? then Session(Err(first.result.error), first.requests)
      else
        var rest := DownloadFiles(ds, files[1..]);
        if rest.result.Err? then Session(Err(rest.result.error), first.requests + rest.requests)
        else
          Session(Ok([first.result.value] + rest.result.value), first.requests + rest.requests)
  }

  /** Kept by the first `Where`: not a directory. */
  predicate IsFile(f: SftpFile) { !f.isDirectory }

  /** `LastWriteTime.ToUniversalTime()` */
  function WriteTime(f: SftpFile): Instant { f.lastWriteTime }

  /** The files `GetItemsAsync` selects from a listing, step by step as the
      source applies them: not a directory, then the date bounds, then the
      page. */
  function SelectFiles(listing: seq<SftpFile>, range: Option<DateRange>, paging: Option<PagingOptions>)
    : seq<SftpFile>
  {
    Paginate(DateFilter(Where(listing, IsFile), WriteTime, range), paging)
  }

  /** A file the connector wants: a file, written strictly inside the range. */
  predicate Wanted(range: Option<DateRange>, f: SftpFile) {
    !f.isDirectory && Admits(range, f.lastWriteTime)
  }

  /** The selection is one page of the listing's wanted files, in listing
      order. */
  lemma SelectFilesWindow(listing: seq<SftpFile>, range: Option<DateRange>, paging: Option<PagingOptions>)
    ensures SelectFiles(listing, range, paging) == Paginate(Where(listing, f => Wanted(range, f)), paging)
  {
    var isFile: SftpFile -> bool := IsFile;
    var stamp: SftpFile -> Instant := WriteTime;
    forall x: SftpFile
      ensures Wanted(range, x) == (isFile(x) && Admits(range, stamp(x)))
    {
      assert stamp(x) == x.lastWriteTime;
    }
    FilterThenDates(listing, isFile, stamp, range, f => Wanted(range, f));
  }

  /** Every selected file is a file of the listing that the range admits,
      and there are at most `pageSize` of them. */
  lemma SelectedFilesAdmitted(listing: seq<SftpFile>, range: Option<DateRange>, paging: Option<PagingOptions>)
    ensures var sel := SelectFiles(listing, range, paging);
            && (forall i :: 0 <= i < |sel| ==>
                  sel[i] in listing && !sel[i].isDirectory && Admits(range, sel[i].lastWriteTime))
            && (paging.Some? ==> |sel| <= paging.value.pageSize)
  {
    var p := f => Wanted(range, f);
    SelectFilesWindow(listing, range, paging);
    var all := Where(listing, p);
    WhereMembers(listing, p);
    if paging.Some? {
      PaginateWindow(all, paging.value);
      var sel := SelectFiles(listing, range, paging);
      forall i | 0 <= i < |sel|
        ensures sel[i] in listing && p(sel[i])
      {
        assert sel[i] == all[PageStart(|all|, paging.value) + i];
      }
    }
  }

  /** A failed enumeration stopped at the first file whose download failed,
      after downloading the files before it, and raised that download's
      error unchanged. */
  lemma {:induction false} DownloadFilesFailure(ds: FtpDataSource, files: seq<SftpFile>)
    requires DownloadFiles(ds, files).result.Err?
    ensures var n := |DownloadFiles(ds, files).requests|;
            && 1 <= n <= |files|
            && DownloadFiles(ds, files).requests == DownloadRequests(files[..n])
            && (forall j :: 0 <= j < n - 1 ==> Download(ds.server, files[j].fullName).Ok?)
            && Download(ds.server, files[n - 1].fullName).Err?
            && DownloadFiles(ds, files).result == Err(Download(ds.server, files[n - 1].fullName).error)
  {
    var first := DownloadFile(ds, files[0]);
    if Download(ds.server, files[0].fullName).Err? {
      assert files[..1][1..] == [];
      assert DownloadFiles(ds, files).requests == first.requests;
    } else {
      var rest := DownloadFiles(ds, files[1..]);
      DownloadFilesFailure(ds, files[1..]);
      var n := |rest.requests|;
      assert DownloadFiles(ds, files).requests == first.requests + rest.requests;
      forall j | 1 <= j < n
        ensures Download(ds.server, files[j].fullName).Ok?
      {
        assert files[j] == files[1..][j - 1];
      }
      assert files[n] == files[1..][n - 1];
      assert files[..n + 1][1..] == files[1..][..n];
      assert DownloadRequests(files[..n + 1]) == [DownloadRequest(files[0].fullName)] + DownloadRequests(files[1..][..n]);
    }
  }

  /** `GetItemsAsync(lastWrittenDateRange, pagingOptions)`: connect, list
      the remote folder, select, then download each selected file. */
  function GetItems(ds: FtpDataSource, range: Option<DateRange>, paging: Option<PagingOptions>)
    : (s: Session<seq<SftpMemoryStream>>)
    ensures |s.requests| >= 1 && s.requests[0] == ConnectRequest(ds.username)
    ensures Connect(ds.server, ds.username, ds.password).Err? ==>
              s == Session(Err(Connect(ds.server, ds.username, ds.password).error), [ConnectRequest(ds.username)])
    ensures Connect(ds.server, ds.username, ds.password).Ok? && ListDirectory(ds.server, ds.remoteFolder).Err? ==>
              s == Session(Err(ListDirectory(ds.server, ds.remoteFolder).error),
                           [ConnectRequest(ds.username), ListRequest(ds.remoteFolder)])
    ensures Connect(ds.server, ds.username, ds.password).Ok? && ListDirectory(ds.server, ds.remoteFolder).Ok? ==>
              var downloads := DownloadFiles(ds, SelectFiles(ListDirectory(ds.server, ds.remoteFolder).value, range, paging));
              && s.result == downloads.result
              && s.requests == [ConnectRequest(ds.username), ListRequest(ds.remoteFolder)] + downloads.requests
    ensures s.result.Ok? ==>
              && Connect(ds.server, ds.username, ds.password).Ok?
              && ListDirectory(ds.server, ds.remoteFolder).Ok?
              && var sel := SelectFiles(ListDirectory(ds.server, ds.remoteFolder).value, range, paging);
              && |s.result.value| == |sel|
              && s.requests == [ConnectRequest(ds.username), ListRequest(ds.remoteFolder)] + DownloadRequests(sel)
              && forall i :: 0 <= i < |sel| ==>
                   && s.result.value[i].key == sel[i].fullName
                   && Ok(s.result.value[i].content) == Download(ds.server, sel[i].fullName)
  {
    var connect := ConnectRequest(ds.username);
    match Connect(ds.server, ds.username, ds.password)
    case Err(e) => Session(Err(e), [connect])
    case Ok(_) =>
      match ListDirectory(ds.server, ds.remoteFolder)
      case Err(e) => Session(Err(e), [connect, ListRequest(ds.remoteFolder)])
      case Ok(listing) =>
        var downloads := DownloadFiles(ds, SelectFiles(listing, range, paging));
        Session(downloads.result, [connect, ListRequest(ds.remoteFolder)] + downloads.requests)
  }

  /** `GetItemAsync(key)`: a blank key is refused before connecting;
      otherwise the path is looked up and the file it names downloaded. */
  function GetItemByKey(ds: FtpDataSource, key: Option<string>): (s: Session<SftpMemoryStream>)
    ensures IsNullOrWhiteSpace(key) ==> s == Session(Err(NullArgument("key")), [])
    ensures !IsNullOrWhiteSpace(key) ==> |s.requests| >= 1 && s.requests[0] == ConnectRequest(ds.username)
    ensures s.result.Ok? ==>
              && Get(ds.server, key.value).Ok?
              && var file := Get(ds.server, key.value).value;
              && s.requests == [ConnectRequest(ds.username), StatRequest(key.value), DownloadRequest(file.fullName)]
              && s.result.value.key == file.fullName
              && Ok(s.result.value.content) == Download(ds.server, file.fullName)
  {
    if IsNullOrWhiteSpace(key) then Session(Err(NullArgument("key")), [])
    else
      var connect := ConnectRequest(ds.username);
      match Connect(ds.server, ds.username, ds.password)
      case Err(e) => Session(Err(e), [connect])
      case Ok(_) =>
        match Get(ds.server, key.value)
        case Err(e) => Session(Err(e), [connect, StatRequest(key.value)])
        case Ok(file) =>
          var d := DownloadFile(ds, file);
          Session(d.result, [connect, StatRequest(key.value)] + d.requests)
  }

  /** Fetching by key the file an enumeration yielded gives the same item,
      provided the server reports the same entry for that path. */
  lemma ByKeyAgreesWithListing(ds: FtpDataSource, range: Option<DateRange>, paging: Option<PagingOptions>, i: nat)
    requires GetItems(ds, range, paging).result.Ok?
    requires i < |GetItems(ds, range, paging).result.value|
    requires var item := GetItems(ds, range, paging).result.value[i];
             !IsNullOrWhiteSpace(Some(item.key)) && Get(ds.server, item.key) == Ok(item.fileInfo)
    ensures var item := GetItems(ds, range, paging).result.value[i];
            GetItemByKey(ds, Some(item.key)).result == Ok(item)
  {
    var listing := ListDirectory(ds.server, ds.remoteFolder).value;
    var sel := SelectFiles(listing, range, paging);
    var item := GetItems(ds, range, paging).result.value[i];
    assert DownloadFiles(ds, sel).result.value[i] == item;
    assert Ok(item) == DownloadFile(ds, sel[i]).result;
  }
}

=== FILE: graph.dfy ===
/** The Microsoft Graph side of the mailbox connector, reduced to data: the
    SDK's message, attachment and folder records, and a server that answers
    each request the connector issues from a snapshot of the mailboxes. */
module Graph {
  import opened Wrappers
  import opened Errors
  import opened Timestamps
  import opened Encoding

  /** `BodyType.Text` / `BodyType.Html` */
  datatype BodyType = TextBody | HtmlBody

  /** `ItemBody`: the body's format (nullable) and its text. */
  datatype ItemBody = ItemBody(contentType: Option<BodyType>, content: string)

  datatype Message = Message(id: string, subject: string,
                             receivedDateTime: Option<Instant>, body: ItemBody)

  /** The `@odata.type` Graph gives file attachments. */
  const FileAttachmentType: string := "#microsoft.graph.fileAttachment"

  /** An attachment is either one the server listed, or the `EmailBodyAttachment`
      the connector manufactures from a message body (which carries the body
      bytes and nothing the server knows of). */
  datatype Attachment =
    | ServerAttachment(id: string, name: string, contentType: Option<string>, size: int,
                       isInline: Option<bool>, lastModifiedDateTime: Option<Instant>,
                       odataType: Option<string>)
    | EmailBodyAttachment(id: string, name: string, contentType: Option<string>, size: int,
                          lastModifiedDateTime: Option<Instant>, bodyContent: seq<byte>)

  /** What the server lists: never a manufactured body attachment. */
  type ListedAttachment = a: Attachment | a.ServerAttachment?
    witness ServerAttachment("", "", None, 0, None, None, None)

  datatype MailFolder = MailFolder(id: string, displayName: string, childFolders: seq<MailFolder>)

  /** The request-builder chain
      `Users[user].MailFolders[root].ChildFolders[childIds[0]]...`; building it
      issues no request. */
  datatype FolderRequest = FolderRequest(user: string, root: string, childIds: seq<string>) {
    function ChildFolder(id: string): (r: FolderRequest)
      ensures r.user == user && r.root == root && r.childIds == childIds + [id]
    {
      this.(childIds := childIds + [id])
    }
  }

  /** One user's mailbox: the folders addressable from the mailbox root (by
      well-known name or id), the messages and their attachment listings, and
      the raw content of each attachment. */
  datatype Mailbox = Mailbox(folders: map<string, MailFolder>,
                             messages: map<string, Message>,
                             attachments: map<string, seq<ListedAttachment>>,
                             contents: map<(string, string), seq<byte>>)

  datatype GraphServer = GraphServer(mailboxes: map<string, Mailbox>)

  function FindById(fs: seq<MailFolder>, id: string): (r: Option<MailFolder>)
    ensures r.Some? ==> r.value in fs && r.value.id == id
  {
    if fs == [] then None else if fs[0].id == id then Some(fs[0]) else FindById(fs[1..], id)
  }

  /** Follows child-folder ids down from `f`. */
  function Descend(f: MailFolder, ids: seq<string>): Option<MailFolder>
    decreases |ids|
  {
    if ids == [] then Some(f)
    else match FindById(f.childFolders, ids[0])
      case None => None
      case Some(c) => Descend(c, ids[1..])
  }

  /** The folder a request chain addresses, if it exists. */
  function Locate(server: GraphServer, req: FolderRequest): Option<MailFolder> {
    if req.user in server.mailboxes && req.root in server.mailboxes[req.user].folders
    then Descend(server.mailboxes[req.user].folders[req.root], req.childIds)
    else None
  }

  /** `folderRequest.ChildFolders.Request().GetAsync()` */
  function ListChildFolders(server: GraphServer, req: FolderRequest): Result<seq<MailFolder>, Error> {
    match Locate(server, req)
    case None => Err(RemoteError("mail folder not found"))
    case Some(f) => Ok(f.childFolders)
  }

  /** `Messages[id].Request().GetAsync()` */
  function GetMessage(server: GraphServer, user: string, id: string): Result<Message, Error> {
    if user in server.mailboxes && id in server.mailboxes[user].messages
    then Ok(server.mailboxes[user].messages[id])
    else Err(RemoteError("message not found"))
  }

  /** `Messages[id].Attachments.Request().GetAsync()`: the server's listing. */
  function ListAttachments(server: GraphServer, user: string, messageId: string): Result<seq<ListedAttachment>, Error> {
    if user in server.mailboxes && messageId in server.mailboxes[user].attachments
    then Ok(server.mailboxes[user].attachments[messageId])
    else Err(RemoteError("message not found"))
  }

  function FindAttachment(atts: seq<ListedAttachment>, id: string): (r: Option<ListedAttachment>)
    ensures r.Some? ==> r.value in atts && r.value.id == id
    ensures r.None? ==> forall i :: 0 <= i < |atts| ==> atts[i].id != id
  {
    if atts == [] then None else if atts[0].id == id then Some(atts[0]) else FindAttachment(atts[1..], id)
  }

  /** `Messages[messageId].Attachments[attachmentId].Request().GetAsync()` */
  function GetAttachment(server: GraphServer, user: string, messageId: string,
                         attachmentId: string): (r: Result<ListedAttachment, Error>)
    ensures r.Ok? ==> r.value.id == attachmentId
  {
    match ListAttachments(server, user, messageId)
    case Err(e) => Err(e)
    case Ok(atts) =>
      match FindAttachment(atts, attachmentId)
      case None => Err(RemoteError("attachment not found"))
      case Some(a) => Ok(a)
  }

  /** The `$value` download of one attachment's content. */
  function DownloadContent(server: GraphServer, user: string, messageId: string,
                           attachmentId: string): Result<seq<byte>, Error> {
    if user in server.mailboxes && (messageId, attachmentId) in server.mailboxes[user].contents
    then Ok(server.mailboxes[user].contents[(messageId, attachmentId)])
    else Err(RemoteError("attachment content not found"))
  }
}

=== FILE: graph_api_helper.dfy ===
/** `GraphAPIHelper.BuildMailboxPath`: turns a `/`- or `\`-separated folder
    path into a request chain by walking child folders, one listing per
    segment after the first. */
module GraphApiHelper {
  import opened Wrappers
  import opened Errors
  import opened Text
  import opened Graph

  /** What a resolution returned, and every child-folder listing it issued,
      in order. */
  datatype Resolution = Resolution(result: Result<FolderRequest, Error>, listings: seq<FolderRequest>)

  /** `mailFolder.Replace("\\", "/").Split("/")`: no trimming, so empty
      segments stay. */
  function Segments(mailFolder: string): (parts: seq<string>)
    ensures |parts| >= 1
    ensures forall i :: 0 <= i < |parts| ==> '/' !in parts[i] && '\\' !in parts[i]
    ensures Join("/", parts) == ReplaceChar(mailFolder, '\\', '/')
  {
    var normalized := ReplaceChar(mailFolder, '\\', '/');
    JoinSplit(normalized, '/');
    SplitPieces(normalized, '/');
    Split(normalized, '/')
  }

  /** How `SingleOrDefault(n => n.DisplayName == p)` ends. */
  datatype Match = NoMatch | Unique(folder: MailFolder) | Ambiguous

  function CountNamed(fs: seq<MailFolder>, name: string): nat {
    if fs == [] then 0 else (if fs[0].displayName == name then 1 else 0) + CountNamed(fs[1..], name)
  }

  /** `childFolders.SingleOrDefault(n => n.DisplayName == name)`: the one
      child with exactly that display name, null when there is none, and an
      exception when there are several. */
  function SingleOrDefault(fs: seq<MailFolder>, name: string): (m: Match)
    ensures m.NoMatch? <==> CountNamed(fs, name) == 0
    ensures m.Ambiguous? <==> CountNamed(fs, name) > 1
    ensures m.Unique? ==> m.folder in fs && m.folder.displayName == name
  {
    if fs == [] then NoMatch
    else if fs[0].displayName == name then
      (if CountNamed(fs[1..], name) == 0 then Unique(fs[0]) else Ambiguous)
    else SingleOrDefault(fs[1..], name)
  }

  /** `new InvalidOperationException($"Child folder '{p}' does not exist")` */
  function NotFound(p: string): Error {
    InvalidOperationException("Child folder '" + p + "' does not exist")
  }

  /** What `SingleOrDefault` throws for more than one match. */
  const MoreThanOneMatch: Error := InvalidOperationException("Sequence contains more than one matching element")

  /** `b` addresses a folder `n` levels below the one `a` addresses. */
  predicate Extends(b: FolderRequest, a: FolderRequest, n: nat) {
    && b.user == a.user && b.root == a.root
    && |b.childIds| == |a.childIds| + n
    && b.childIds[..|a.childIds|] == a.childIds
  }

  /** One successful step of the walk: listing `a`'s children finds exactly
      one named `name`, and `b` addresses it by id. */
  predicate Step(server: GraphServer, a: FolderRequest, name: string, b: FolderRequest) {
    && ListChildFolders(server, a).Ok?
    && var m := SingleOrDefault(ListChildFolders(server, a).value, name);
       m.Unique? && b == a.ChildFolder(m.folder.id)
  }

  /** No step is possible from `a` for `name`: the listing fails, or no
      child or several children carry that display name. */
  predicate Stuck(server: GraphServer, a: FolderRequest, name: string) {
    || ListChildFolders(server, a).Err?
    || !SingleOrDefault(ListChildFolders(server, a).value, name).Unique?
  }

  /** The error a failed step raises: the server's own, else "does not
      exist" naming the segment, else the ambiguity. */
  function StepError(server: GraphServer, a: FolderRequest, name: string): Error {
    match ListChildFolders(server, a)
    case Err(e) => e
    case Ok(children) =>
      if SingleOrDefault(children, name).NoMatch? then NotFound(name) else MoreThanOneMatch
  }

  /** The `foreach` over the segments after the first: list the current
      folder's children, keep the single exact match, descend, and stop at the
      first failure. */
  function Walk(server: GraphServer, req: FolderRequest, parts: seq<string>): (w: Resolution)
    ensures |w.listings| <= |parts|
    ensures parts != [] ==> |w.listings| >= 1 && w.listings[0] == req
    ensures w.result.Ok? ==> |w.listings| == |parts|
    ensures w.result.Err? ==> |w.listings| >= 1
    decreases |parts|
  {
    if parts == [] then Resolution(Ok(req), [])
    else match ListChildFolders(server, req)
      case Err(e) => Resolution(Err(e), [req])
      case Ok(children) =>
        match SingleOrDefault(children, parts[0])
        case NoMatch => Resolution(Err(NotFound(parts[0])), [req])
        case Ambiguous => Resolution(Err(MoreThanOneMatch), [req])
        case Unique(f) =>
          var rest := Walk(server, req.ChildFolder(f.id), parts[1..]);
          Resolution(rest.result, [req] + rest.listings)
  }

  lemma ExtendsTrans(c: FolderRequest, b: FolderRequest, a: FolderRequest, m: nat, n: nat)
    requires Extends(c, b, m) && Extends(b, a, n)
    ensures Extends(c, a, n + m)
  {
    assert c.childIds[..|a.childIds|] == c.childIds[..|b.childIds|][..|a.childIds|];
  }

  /** Each listing after the first addresses the unique match of the
      previous segment. */
  lemma {:induction false} WalkSteps(server: GraphServer, req: FolderRequest, parts: seq<string>)
    ensures forall i :: 0 <= i < |Walk(server, req, parts).listings| - 1 ==>
              Step(server, Walk(server, req, parts).listings[i], parts[i], Walk(server, req, parts).listings[i + 1])
    decreases |parts|
  {
    var w := Walk(server, req, parts);
    if parts != [] && ListChildFolders(server, req).Ok? {
      var m := SingleOrDefault(ListChildFolders(server, req).value, parts[0]);
      if m.Unique? {
        var next := req.ChildFolder(m.folder.id);
        var rest := Walk(server, next, parts[1..]);
        WalkSteps(server, next, parts[1..]);
        assert w.listings == [req] + rest.listings;
        if |w.listings| > 1 {
          assert w.listings[1] == next;
          assert Step(server, req, parts[0], next);
        }
        forall i | 1 <= i < |w.listings| - 1
          ensures Step(server, w.listings[i], parts[i], w.listings[i + 1])
        {
          var j := i - 1;
          assert Step(server, rest.listings[j], parts[1..][j], rest.listings[j + 1]);
          assert w.listings[i] == rest.listings[j] && w.listings[i + 1] == rest.listings[j + 1];
          assert parts[i] == parts[1..][j];
        }
      }
    }
  }

  /** Every request of a walk lies below the starting folder, one level per
      listing, and a success ends one level per segment below it. */
  lemma {:induction false} WalkDepth(server: GraphServer, req: FolderRequest, parts: seq<string>)
    ensures var w := Walk(server, req, parts);
            && (forall i :: 0 <= i < |w.listings| ==> Extends(w.listings[i], req, i))
            && (w.result.Ok? ==> Extends(w.result.value, req, |parts|))
    decreases |parts|
  {
    var w := Walk(server, req, parts);
    if parts != [] && ListChildFolders(server, req).Ok? {
      var m := SingleOrDefault(ListChildFolders(server, req).value, parts[0]);
      if m.Unique? {
        var next := req.ChildFolder(m.folder.id);
        var rest := Walk(server, next, parts[1..]);
        WalkDepth(server, next, parts[1..]);
        assert w.listings == [req] + rest.listings;
        assert Extends(next, req, 1);
        forall i | 1 <= i < |w.listings|
          ensures Extends(w.listings[i], req, i)
        {
          assert w.listings[i] == rest.listings[i - 1];
          ExtendsTrans(rest.listings[i - 1], next, req, i - 1, 1);
        }
        if w.result.Ok? {
          ExtendsTrans(w.result.value, next, req, |parts| - 1, 1);
        }
      }
    }
  }

  /** A successful walk ends one step below its last listing. */
  lemma {:induction false} WalkSucceeds(server: GraphServer, req: FolderRequest, parts: seq<string>)
    requires Walk(server, req, parts).result.Ok?
    ensures parts == [] ==> Walk(server, req, parts).result.value == req
    ensures parts != [] ==>
              Step(server, Walk(server, req, parts).listings[|parts| - 1], parts[|parts| - 1],
                   Walk(server, req, parts).result.value)
    decreases |parts|
  {
    if parts != [] {
      var m := SingleOrDefault(ListChildFolders(server, req).value, parts[0]);
      var next := req.ChildFolder(m.folder.id);
      var rest := Walk(server, next, parts[1..]);
      if |parts| == 1 {
        assert Step(server, req, parts[0], next);
      } else {
        WalkSucceeds(server, next, parts[1..]);
        assert Walk(server, req, parts).listings[|parts| - 1] == rest.listings[|parts[1..]| - 1];
        assert parts[|parts| - 1] == parts[1..][|parts[1..]| - 1];
      }
    }
  }

  /** A walk whose first step is stuck fails there, listing only its
      starting folder. */
  lemma WalkStuckAtStart(server: GraphServer, req: FolderRequest, parts: seq<string>)
    requires parts != [] && Stuck(server, req, parts[0])
    ensures Walk(server, req, parts) == Resolution(Err(StepError(server, req, parts[0])), [req])
  {
  }

  /** The folder a step that is not stuck descends into. */
  function NextFolder(server: GraphServer, a: FolderRequest, name: string): (b: FolderRequest)
    requires !Stuck(server, a, name)
    ensures Step(server, a, name, b)
  {
    a.ChildFolder(SingleOrDefault(ListChildFolders(server, a).value, name).folder.id)
  }

  /** A walk whose first step is possible lists its start, then walks on
      from the match. */
  lemma WalkDescends(server: GraphServer, req: FolderRequest, parts: seq<string>)
    requires parts != [] && !Stuck(server, req, parts[0])
    ensures var rest := Walk(server, NextFolder(server, req, parts[0]), parts[1..]);
            Walk(server, req, parts) == Resolution(rest.result, [req] + rest.listings)
  {
  }

  /** A failed walk stops at its last listing, which is stuck, with that
      step's error. */
  lemma {:induction false} WalkFails(server: GraphServer, req: FolderRequest, parts: seq<string>)
    requires Walk(server, req, parts).result.Err?
    ensures var k := |Walk(server, req, parts).listings| - 1;
            && Stuck(server, Walk(server, req, parts).listings[k], parts[k])
            && Walk(server, req, parts).result.error == StepError(server, Walk(server, req, parts).listings[k], parts[k])
    decreases |parts|
  {
    if Stuck(server, req, parts[0]) {
      WalkStuckAtStart(server, req, parts);
    } else {
      var next := NextFolder(server, req, parts[0]);
      var rest := Walk(server, next, parts[1..]);
      WalkDescends(server, req, parts);
      WalkFails(server, next, parts[1..]);
      var k := |rest.listings|;
      assert Walk(server, req, parts).listings[k] == rest.listings[k - 1];
      assert parts[k] == parts[1..][k - 1];
    }
  }

  /** What a walk did: each listing after the first addresses the unique
      match of the previous segment; a success ends one step below the last
      listing; a failure stops at the first stuck step with that step's error.
      Every request lies below the starting folder, one level per listing. */
  lemma WalkTrace(server: GraphServer, req: FolderRequest, parts: seq<string>)
    ensures var w := Walk(server, req, parts);
            && (forall i :: 0 <= i < |w.listings| - 1 ==>
                  Step(server, w.listings[i], parts[i], w.listings[i + 1]))
            && (forall i :: 0 <= i < |w.listings| ==> Extends(w.listings[i], req, i))
            && (w.result.Ok? ==>
                  && Extends(w.result.value, req, |parts|)
                  && (parts == [] ==> w.result.value == req)
                  && (parts != [] ==>
                        Step(server, w.listings[|parts| - 1], parts[|parts| - 1], w.result.value)))
            && (w.result.Err? ==>
                  var k := |w.listings| - 1;
                  Stuck(server, w.listings[k], parts[k])
                  && w.result.error == StepError(server, w.listings[k], parts[k]))
  {
    WalkSteps(server, req, parts);
    WalkDepth(server, req, parts);
    if Walk(server, req, parts).result.Ok? {
      WalkSucceeds(server, req, parts);
    } else {
      WalkFails(server, req, parts);
    }
  }

  /** A walk whose every segment has a unique match ends at the last folder
      of the chain, after listing each earlier folder once. */
  lemma {:induction false} WalkFollowsChain(server: GraphServer, parts: seq<string>, chain: seq<FolderRequest>)
    requires |chain| == |parts| + 1
    requires forall i :: 0 <= i < |parts| ==> Step(server, chain[i], parts[i], chain[i + 1])
    ensures Walk(server, chain[0], parts) == Resolution(Ok(chain[|parts|]), chain[..|parts|])
  {
    if parts != [] {
      WalkFollowsChain(server, parts[1..], chain[1..]);
      assert chain[..|parts|] == [chain[0]] + chain[1..][..|parts| - 1];
    }
  }

  /** A walk stops at the first segment without a unique match: it raises
      that step's error and lists no folder below it. */
  lemma {:induction false} WalkStopsAtFirstFailure(server: GraphServer, parts: seq<string>,
                                                   chain: seq<FolderRequest>)
    requires 1 <= |chain| <= |parts|
    requires forall i :: 0 <= i < |chain| - 1 ==> Step(server, chain[i], parts[i], chain[i + 1])
    requires Stuck(server, chain[|chain| - 1], parts[|chain| - 1])
    ensures Walk(server, chain[0], parts)
            == Resolution(Err(StepError(server, chain[|chain| - 1], parts[|chain| - 1])), chain)
  {
    if |chain| > 1 {
      WalkStopsAtFirstFailure(server, parts[1..], chain[1..]);
      assert chain == [chain[0]] + chain[1..];
    }
  }

  /** The walk over every segment after the root, restated with the
      segments' own positions: listing `i` is followed by the match of
      segment `i + 1`. */
  lemma WalkAfterRoot(server: GraphServer, root: FolderRequest, parts: seq<string>)
    requires |parts| >= 1
    ensures var w := Walk(server, root, parts[1..]);
            && (|parts| > 1 ==> |w.listings| >= 1 && w.listings[0] == root)
            && (forall i :: 0 <= i < |w.listings| - 1 ==>
                  Step(server, w.listings[i], parts[i + 1], w.listings[i + 1]))
            && (forall i :: 0 <= i < |w.listings| ==> Extends(w.listings[i], root, i))
            && (w.result.Ok? ==> && |w.listings| == |parts| - 1
                                 && Extends(w.result.value, root, |parts| - 1)
                                 && (|parts| == 1 ==> w.result.value == root)
                                 && (|parts| > 1 ==>
                                       Step(server, w.listings[|parts| - 2], parts[|parts| - 1], w.result.value)))
            && (w.result.Err? ==> && 1 <= |w.listings| <= |parts| - 1
                                  && Stuck(server, w.listings[|w.listings| - 1], parts[|w.listings|])
                                  && w.result.error
                                     == StepError(server, w.listings[|w.listings| - 1], parts[|w.listings|]))
  {
    var tail := parts[1..];
    var w := Walk(server, root, tail);
    WalkTrace(server, root, tail);
    forall i | 0 <= i < |w.listings| - 1
      ensures Step(server, w.listings[i], parts[i + 1], w.listings[i + 1])
    {
      assert Step(server, w.listings[i], tail[i], w.listings[i + 1]);
      assert tail[i] == parts[i + 1];
    }
    if w.result.Ok? && |parts| > 1 {
      assert tail[|tail| - 1] == parts[|parts| - 1];
    }
    if w.result.Err? {
      assert tail[|w.listings| - 1] == parts[|w.listings|];
    }
  }

  /** `BuildMailboxPath(client, mailFolder, username)`: argument checks
      first, then the root segment addressed by name without a request, then
      the walk over the remaining segments.  Listing `i` (from the root)
      lists the folder whose child named segment `i + 1` is descended into;
      a success addresses the match of the last segment; a failure stops at
      the first listing with no single exact-name match. */
  function BuildMailboxPath(client: Option<GraphServer>, mailFolder: Option<string>,
                            username: Option<string>): (w: Resolution)
    ensures client.None? ==> w == Resolution(Err(NullArgument("GraphServiceClient")), [])
    ensures client.Some? && IsNullOrWhiteSpace(mailFolder) ==>
              w == Resolution(Err(MissingNull("mailFolder")), [])
    ensures client.Some? && !IsNullOrWhiteSpace(mailFolder) && IsNullOrWhiteSpace(username) ==>
              w == Resolution(Err(MissingNull("username")), [])
    ensures client.Some? && !IsNullOrWhiteSpace(mailFolder) && !IsNullOrWhiteSpace(username) ==>
              var parts := Segments(mailFolder.value);
              var root := FolderRequest(username.value, parts[0], []);
              && |w.listings| <= |parts| - 1
              && (|parts| == 1 ==> w == Resolution(Ok(root), []))
              && (|parts| > 1 ==> |w.listings| >= 1 && w.listings[0] == root)
              && (forall i :: 0 <= i < |w.listings| - 1 ==>
                    Step(client.value, w.listings[i], parts[i + 1], w.listings[i + 1]))
              && (forall i :: 0 <= i < |w.listings| ==> Extends(w.listings[i], root, i))
              && (w.result.Ok? ==> && |w.listings| == |parts| - 1
                                   && Extends(w.result.value, root, |parts| - 1)
                                   && (|parts| > 1 ==>
                                         Step(client.value, w.listings[|parts| - 2], parts[|parts| - 1], w.result.value)))
              && (w.result.Err? ==> && 1 <= |w.listings|
                                    && Stuck(client.value, w.listings[|w.listings| - 1], parts[|w.listings|])
                                    && w.result.error
                                       == StepError(client.value, w.listings[|w.listings| - 1], parts[|w.listings|]))
  {
    if client.None? then Resolution(Err(NullArgument("GraphServiceClient")), [])
    else if IsNullOrWhiteSpace(mailFolder) then Resolution(Err(MissingNull("mailFolder")), [])
    else if IsNullOrWhiteSpace(username) then Resolution(Err(MissingNull("username")), [])
    else
      var parts := Segments(mailFolder.value);
      var root := FolderRequest(username.value, parts[0], []);
      WalkAfterRoot(client.value, root, parts);
      Walk(client.value, root, parts[1..])
  }
}

=== FILE: local_disk.dfy ===
/** The local file system, reduced to data: each directory's files in the
    order `DirectoryInfo.GetFiles` returns them, their last write times, and
    their contents. */
module LocalDisk {
  import opened Wrappers
  import opened Errors
  import opened Timestamps
  import opened Encoding

  /** `FileInfo`: a handle on a path. */
  datatype FileInfo = FileInfo(fullName: string)

  datatype Disk = Disk(directories: map<string, seq<FileInfo>>,
                       lastWriteTimes: map<string, Instant>,
                       contents: map<string, seq<byte>>)

  /** What .NET reports as the last write time of a path that does not exist:
      midnight, 1 January 1601, UTC. */
  const FileTimeOrigin: Instant := DateTime(1601, 1, 1, 0, 0, 0, 0)

  /** `file.LastWriteTime`, as an instant. */
  function LastWriteTime(disk: Disk, f: FileInfo): Instant {
    if f.fullName in disk.lastWriteTimes then disk.lastWriteTimes[f.fullName] else FileTimeOrigin
  }

  /** `new DirectoryInfo(path).GetFiles()` */
  function GetFiles(disk: Disk, path: string): Result<seq<FileInfo>, Error> {
    if path in disk.directories then Ok(disk.directories[path])
    else Err(RemoteError("directory not found"))
  }

  /** Opening a file and reading all of it. */
  function ReadAll(disk: Disk, f: FileInfo): Result<seq<byte>, Error> {
    if f.fullName in disk.contents then Ok(disk.contents[f.fullName])
    else Err(RemoteError("file not found"))
  }
}

=== FILE: selection.dfy ===
/** The LINQ steps the file connectors chain over a listing: `Where`,
    `Skip`, `Take`, and the paging options that drive the last two. */
module Selection {
  import opened Wrappers
  import opened Timestamps
  import opened DateRanges

  /** `DataSourcePagingOptions`: a zero-based page index and a page size. */
  datatype PagingOptions = PagingOptions(page: nat, pageSize: nat)

  /** `xs.Where(p)`: the elements satisfying `p`, in their original order. */
  function Where<T>(xs: seq<T>, p: T -> bool): (r: seq<T>)
    ensures |r| <= |xs|
  {
    if xs == [] then []
    else (if p(xs[0]) then [xs[0]] else []) + Where(xs[1..], p)
  }

  /** A filter keeps elements of its input that pass, and every element
      that passes. */
  lemma {:induction false} WhereMembers<T>(xs: seq<T>, p: T -> bool)
    ensures forall i :: 0 <= i < |Where(xs, p)| ==> Where(xs, p)[i] in xs && p(Where(xs, p)[i])
    ensures forall i :: 0 <= i < |xs| && p(xs[i]) ==> xs[i] in Where(xs, p)
  {
    if xs != [] {
      WhereMembers(xs[1..], p);
      var r := Where(xs, p);
      var head := if p(xs[0]) then [xs[0]] else [];
      assert r == head + Where(xs[1..], p);
      forall i | 0 <= i < |xs| && p(xs[i])
        ensures xs[i] in r
      {
        if i > 0 {
          assert xs[i] == xs[1..][i - 1];
        }
      }
    }
  }

  /** `xs.Skip(n)` */
  function Skip<T>(xs: seq<T>, n: nat): seq<T> {
    if n <= |xs| then xs[n..] else []
  }

  /** `xs.Take(n)` */
  function Take<T>(xs: seq<T>, n: nat): seq<T> {
    if n <= |xs| then xs[..n] else xs
  }

  /** `Skip(Page * PageSize).Take(PageSize)` when paging is requested. */
  function Paginate<T>(xs: seq<T>, paging: Option<PagingOptions>): seq<T> {
    if paging.None? then xs
    else Take(Skip(xs, paging.value.page * paging.value.pageSize), paging.value.pageSize)
  }

  /** The start of a page inside a listing of length `n`. */
  function PageStart(n: nat, paging: PagingOptions): (k: nat)
    ensures k <= n
  {
    if paging.page * paging.pageSize <= n then paging.page * paging.pageSize else n
  }

  /** The end of a page inside a listing of length `n`. */
  function PageEnd(n: nat, paging: PagingOptions): (k: nat)
    ensures PageStart(n, paging) <= k <= n
  {
    var s := PageStart(n, paging);
    if s + paging.pageSize <= n then s + paging.pageSize else n
  }

  /** Paging cuts out one contiguous window: it starts after `page * pageSize`
      elements (or at the end), holds at most `pageSize` of them, and falls
      short of `pageSize` only at the end of the listing. */
  lemma PaginateWindow<T>(xs: seq<T>, paging: PagingOptions)
    ensures Paginate(xs, Some(paging)) == xs[PageStart(|xs|, paging)..PageEnd(|xs|, paging)]
    ensures |Paginate(xs, Some(paging))| <= paging.pageSize
    ensures |Paginate(xs, Some(paging))| < paging.pageSize ==> PageEnd(|xs|, paging) == |xs|
  {
  }

  /** Consecutive pages of the same size tile the listing: page `k + 1`
      starts where page `k` ends. */
  lemma PagesAdjacent<T>(xs: seq<T>, page: nat, size: nat)
    ensures PageStart(|xs|, PagingOptions(page + 1, size)) == PageEnd(|xs|, PagingOptions(page, size))
  {
    assert (page + 1) * size == page * size + size;
  }

  /** A one-element filter keeps that element exactly when it passes. */
  lemma WhereSingle<T>(x: T, p: T -> bool)
    ensures Where([x], p) == if p(x) then [x] else []
  {
    assert [x][1..] == [];
  }

  /** Filtering distributes over three concatenated parts. */
  lemma WhereAppend3<T>(xs: seq<T>, ys: seq<T>, zs: seq<T>, p: T -> bool)
    ensures Where(xs + ys + zs, p) == Where(xs, p) + Where(ys, p) + Where(zs, p)
  {
    WhereAppend(xs + ys, zs, p);
    WhereAppend(xs, ys, p);
  }

  /** Two filters in a row keep what both predicates accept, in order. */
  lemma {:induction false} WhereWhere<T>(xs: seq<T>, p: T -> bool, q: T -> bool)
    ensures Where(Where(xs, p), q) == Where(xs, x => p(x) && q(x))
  {
    if xs != [] {
      WhereWhere(xs[1..], p, q);
      WhereAppend([xs[0]], xs[1..], q);
      WhereAppend(if p(xs[0]) then [xs[0]] else [], Where(xs[1..], p), q);
      assert [xs[0]] + xs[1..] == xs;
    }
  }

  /** Filtering distributes over concatenation. */
  lemma {:induction false} WhereAppend<T>(xs: seq<T>, ys: seq<T>, p: T -> bool)
    ensures Where(xs + ys, p) == Where(xs, p) + Where(ys, p)
  {
    if xs == [] {
      assert xs + ys == ys;
    } else {
      var zs := xs + ys;
      assert zs[0] == xs[0];
      assert zs[1..] == xs[1..] + ys;
      assert Where(zs, p) == (if p(xs[0]) then [xs[0]] else []) + Where(xs[1..] + ys, p);
      WhereAppend(xs[1..], ys, p);
    }
  }

  /** The date steps of the file connectors: `Where(t > From)` when `From`
      is set, then `Where(t < To)` when `To` is set; nothing for a null range. */
  function DateFilter<T>(xs: seq<T>, stamp: T -> Instant, range: Option<DateRange>): seq<T> {
    if range.None? then xs
    else
      var afterFrom := if range.value.from.Some?
                       then Where(xs, x => Before(range.value.from.value, stamp(x)))
                       else xs;
      if range.value.to.Some?
      then Where(afterFrom, x => Before(stamp(x), range.value.to.value))
      else afterFrom
  }

  /** The two date steps amount to one filter by the strict range. */
  lemma DateFilterAdmits<T>(xs: seq<T>, stamp: T -> Instant, range: Option<DateRange>)
    ensures DateFilter(xs, stamp, range) == Where(xs, x => Admits(range, stamp(x)))
  {
    var admits := x => Admits(range, stamp(x));
    if range.None? {
      WhereAll(xs, admits);
    } else {
      var r := range.value;
      if r.from.Some? && r.to.Some? {
        var pf := x => Before(r.from.value, stamp(x));
        var pt := x => Before(stamp(x), r.to.value);
        WhereWhere(xs, pf, pt);
        WhereSame(xs, x => pf(x) && pt(x), admits);
      } else if r.from.Some? {
        WhereSame(xs, x => Before(r.from.value, stamp(x)), admits);
      } else if r.to.Some? {
        WhereSame(xs, x => Before(stamp(x), r.to.value), admits);
      } else {
        WhereAll(xs, admits);
      }
    }
  }

  /** The same, for any predicate that agrees with the range. */
  lemma DateFilterBy<T>(xs: seq<T>, stamp: T -> Instant, range: Option<DateRange>, wanted: T -> bool)
    requires forall x :: wanted(x) == Admits(range, stamp(x))
    ensures DateFilter(xs, stamp, range) == Where(xs, wanted)
  {
    DateFilterAdmits(xs, stamp, range);
    WhereSame(xs, x => Admits(range, stamp(x)), wanted);
  }

  /** A first filter followed by the date steps is one filter by both. */
  lemma FilterThenDates<T>(xs: seq<T>, p: T -> bool, stamp: T -> Instant, range: Option<DateRange>,
                           both: T -> bool)
    requires forall x :: both(x) == (p(x) && Admits(range, stamp(x)))
    ensures DateFilter(Where(xs, p), stamp, range) == Where(xs, both)
  {
    var admits := x => Admits(range, stamp(x));
    DateFilterAdmits(Where(xs, p), stamp, range);
    WhereWhere(xs, p, admits);
    WhereSame(xs, x => p(x) && admits(x), both);
  }

  /** A filter that accepts everything changes nothing. */
  lemma {:induction false} WhereAll<T>(xs: seq<T>, p: T -> bool)
    requires forall x :: p(x)
    ensures Where(xs, p) == xs
  {
    if xs != [] {
      WhereAll(xs[1..], p);
    }
  }

  /** Filters by predicates that agree on every element agree. */
  lemma {:induction false} WhereSame<T>(xs: seq<T>, p: T -> bool, q: T -> bool)
    requires forall x :: p(x) == q(x)
    ensures Where(xs, p) == Where(xs, q)
  {
    if xs != [] {
      WhereSame(xs[1..], p, q);
    }
  }
}

=== FILE: sftp.dfy ===
/** The SFTP side of the file-server connector, reduced to data: directory
    listings in the server's order, file attributes by path, and contents. */
module Sftp {
  import opened Wrappers
  import opened Errors
  import opened Timestamps
  import opened Encoding

  /** `SftpFile`: a listed entry with its full path, kind, and last write
      time (already converted to UTC). */
  datatype SftpFile = SftpFile(fullName: string, isDirectory: bool, lastWriteTime: Instant)

  /** The server at the configured host and port: the accounts it accepts,
      its directory listings, file attributes by path, and contents. */
  datatype SftpServer = SftpServer(accounts: map<string, string>,
                                   directories: map<string, seq<SftpFile>>,
                                   entries: map<string, SftpFile>,
                                   contents: map<string, seq<byte>>)

  /** `client.Connect()` with password authentication. */
  function Connect(server: SftpServer, username: string, password: string): Result<(), Error> {
    if username in server.accounts && server.accounts[username] == password then Ok(())
    else Err(RemoteError("authentication failed"))
  }

  /** `client.ListDirectory(path)` */
  function ListDirectory(server: SftpServer, path: string): Result<seq<SftpFile>, Error> {
    if path in server.directories then Ok(server.directories[path])
    else Err(RemoteError("no such directory"))
  }

  /** `client.Get(path)` */
  function Get(server: SftpServer, path: string): Result<SftpFile, Error> {
    if path in server.entries then Ok(server.entries[path]) else Err(RemoteError("no such file"))
  }

  /** `client.DownloadFile(path, stream)`: the bytes written to the stream. */
  function Download(server: SftpServer, path: string): Result<seq<byte>, Error> {
    if path in server.contents then Ok(server.contents[path]) else Err(RemoteError("no such file"))
  }
}

=== FILE: stream_items.dfy ===
/** The content-bearing items the connectors yield: a memory stream plus the
    record it came from and its key. */
module StreamItems {
  import opened Wrappers
  import opened Errors
  import opened Encoding
  import opened Graph
  import opened Sftp
  import opened LocalDisk

  /** `AttachmentMemoryStream`: keyed by (message id, attachment id). */
  datatype AttachmentMemoryStream = AttachmentMemoryStream(key: (string, string),
                                                           attachmentInfo: Attachment,
                                                           messageInfo: Message,
                                                           content: seq<byte>)

  /** The constructor: rejects a null attachment, then a null message, each
      with `ArgumentException(nameof(...))`; otherwise an empty stream. */
  function NewAttachmentMemoryStream(attachmentInfo: Option<Attachment>,
                                     messageInfo: Option<Message>): (r: Result<AttachmentMemoryStream, Error>)
    ensures attachmentInfo.None? ==> r == Err(ArgumentException(Some("attachmentInfo"), None))
    ensures attachmentInfo.Some? && messageInfo.None? ==>
              r == Err(ArgumentException(Some("messageInfo"), None))
    ensures r.Ok? <==> attachmentInfo.Some? && messageInfo.Some?
    ensures r.Ok? ==>
              && r.value.key == (messageInfo.value.id, attachmentInfo.value.id)
              && r.value.attachmentInfo == attachmentInfo.value
              && r.value.messageInfo == messageInfo.value
              && r.value.content == []
  {
    if attachmentInfo.None? then Err(ArgumentException(Some("attachmentInfo"), None))
    else if messageInfo.None? then Err(ArgumentException(Some("messageInfo"), None))
    else Ok(AttachmentMemoryStream((messageInfo.value.id, attachmentInfo.value.id),
                                   attachmentInfo.value, messageInfo.value, []))
  }

  /** `SftpMemoryStream`: keyed by the remote file's full path. */
  datatype SftpMemoryStream = SftpMemoryStream(key: string, fileInfo: SftpFile, content: seq<byte>) {
    /** `ToString()`: the full path of the file it holds. */
    function ToString(): string {
      fileInfo.fullName
    }
  }

  /** The constructor: rejects a null file; otherwise an empty stream whose
      key and string form are both the file's full path. */
  function NewSftpMemoryStream(file: Option<SftpFile>): (r: Result<SftpMemoryStream, Error>)
    ensures file.None? ==> r == Err(ArgumentException(Some("file"), None))
    ensures file.Some? ==>
              && r.Ok? && r.value.key == file.value.fullName && r.value.fileInfo == file.value
              && r.value.content == [] && r.value.ToString() == r.value.key
  {
    if file.None? then Err(ArgumentException(Some("file"), None))
    else Ok(SftpMemoryStream(file.value.fullName, file.value, []))
  }

  /** `FileMemoryStream`: keyed by the local file's full path. */
  datatype FileMemoryStream = FileMemoryStream(key: string, fileInfo: FileInfo, content: seq<byte>) {
    /** `ToString()`: the full path of the file it holds. */
    function ToString(): string {
      fileInfo.fullName
    }
  }

  /** The constructor: rejects a null file; otherwise an empty stream whose
      key and string form are both the file's full path. */
  function NewFileMemoryStream(file: Option<FileInfo>): (r: Result<FileMemoryStream, Error>)
    ensures file.None? ==> r == Err(ArgumentException(Some("file"), None))
    ensures file.Some? ==>
              && r.Ok? && r.value.key == file.value.fullName && r.value.fileInfo == file.value
              && r.value.content == [] && r.value.ToString() == r.value.key
  {
    if file.None? then Err(ArgumentException(Some("file"), None))
    else Ok(FileMemoryStream(file.value.fullName, file.value, []))
  }
}

=== FILE: text.dfy ===
/** String helpers with the semantics of the .NET members the connectors call:
    `string.IsNullOrWhiteSpace`, `string.Replace`, `string.Split`,
    `string.Join`, and decimal rendering of numbers. */
module Text {
  import opened Wrappers

  /** `char.IsWhiteSpace`: the Unicode space, line and paragraph separators
      plus the control characters U+0009..U+000D and U+0085. */
  predicate IsWhiteSpace(c: char) {
    || ('\U{0009}' <= c <= '\U{000D}')
    || c == '\U{0020}' || c == '\U{0085}' || c == '\U{00A0}' || c == '\U{1680}'
    || ('\U{2000}' <= c <= '\U{200A}')
    || c == '\U{2028}' || c == '\U{2029}' || c == '\U{202F}' || c == '\U{205F}'
    || c == '\U{3000}'
  }

  /** `string.IsNullOrWhiteSpace`: null, empty, or white space only. */
  predicate IsNullOrWhiteSpace(s: Option<string>) {
    s.None? || forall i :: 0 <= i < |s.value| ==> IsWhiteSpace(s.value[i])
  }

  /** `s.Replace(target, replacement)` for single characters. */
  function ReplaceChar(s: string, target: char, replacement: char): (r: string)
    ensures |r| == |s|
    ensures forall i :: 0 <= i < |s| ==> r[i] == (if s[i] == target then replacement else s[i])
    ensures target != replacement ==> target !in r
  {
    if s == [] then []
    else [if s[0] == target then replacement else s[0]] + ReplaceChar(s[1..], target, replacement)
  }

  /** `string.Join(sep, parts)`; a null part is passed as "". */
  function Join(sep: string, parts: seq<string>): string
  {
    if |parts| == 0 then ""
    else if |parts| == 1 then parts[0]
    else parts[0] + sep + Join(sep, parts[1..])
  }

  /** `s.Split(sep)` without options: empty pieces are kept, so the result
      always has one more piece than `s` has separators. */
  function Split(s: string, sep: char): (parts: seq<string>)
    ensures |parts| >= 1
    ensures forall i :: 0 <= i < |parts| ==> sep !in parts[i]
  {
    if s == [] then [""]
    else
      var rest := Split(s[1..], sep);
      if s[0] == sep then [""] + rest
      else [[s[0]] + rest[0]] + rest[1..]
  }

  /** A piece of a split never holds a character the source did not. */
  lemma {:induction false} SplitPieces(s: string, sep: char)
    ensures forall i, c :: 0 <= i < |Split(s, sep)| && c in Split(s, sep)[i] ==> c in s
  {
    if s != [] {
      var rest := Split(s[1..], sep);
      SplitPieces(s[1..], sep);
      forall i, c | 0 <= i < |Split(s, sep)| && c in Split(s, sep)[i]
        ensures c in s
      {
        if s[0] == sep {
          assert Split(s, sep)[i] == rest[i - 1];
        } else if i == 0 {
          assert Split(s, sep)[0] == [s[0]] + rest[0];
          assert c == s[0] || c in rest[0];
        } else {
          assert Split(s, sep)[i] == rest[i];
        }
        assert c in s[1..] || c == s[0];
      }
    }
  }

  /** Number of occurrences of `c` in `s`. */
  function Count(s: string, c: char): nat {
    if s == [] then 0 else (if s[0] == c then 1 else 0) + Count(s[1..], c)
  }

  /** Joining two parts puts exactly one separator between them. */
  lemma JoinPair(sep: string, a: string, b: string)
    ensures Join(sep, [a, b]) == a + sep + b
  {
    assert [a, b][1..] == [b];
  }

  lemma JoinCons(sep: string, a: string, rest: seq<string>)
    requires |rest| >= 1
    ensures Join(sep, [a] + rest) == a + sep + Join(sep, rest)
  {
    assert ([a] + rest)[1..] == rest;
  }

  lemma JoinPrepend(sep: string, c: char, a: string, rest: seq<string>)
    ensures Join(sep, [[c] + a] + rest) == [c] + Join(sep, [a] + rest)
  {
    if |rest| == 0 {
    } else {
      JoinCons(sep, [c] + a, rest);
      JoinCons(sep, a, rest);
    }
  }

  /** Splitting loses nothing: joining the pieces back with the separator
      gives the original string. */
  lemma {:induction false} JoinSplit(s: string, sep: char)
    ensures Join([sep], Split(s, sep)) == s
  {
    if s == [] {
    } else {
      var rest := Split(s[1..], sep);
      JoinSplit(s[1..], sep);
      if s[0] == sep {
        JoinCons([sep], "", rest);
      } else {
        assert Split(s, sep) == [[s[0]] + rest[0]] + rest[1..];
        JoinPrepend([sep], s[0], rest[0], rest[1..]);
        assert [rest[0]] + rest[1..] == rest;
      }
    }
  }

  /** There is exactly one piece per separator, plus one. */
  lemma {:induction false} SplitCount(s: string, sep: char)
    ensures |Split(s, sep)| == Count(s, sep) + 1
  {
    if s != [] {
      SplitCount(s[1..], sep);
    }
  }

  // ---------------------------------------------------------------------
  // Decimal digits

  predicate IsDigit(c: char) {
    '0' <= c <= '9'
  }

  predicate AllDigits(s: string) {
    forall i :: 0 <= i < |s| ==> IsDigit(s[i])
  }

  function DigitChar(d: nat): (c: char)
    requires d < 10
    ensures IsDigit(c) && c as int - '0' as int == d
  {
    ('0' as int + d) as char
  }

  function DigitValue(c: char): (d: nat)
    requires IsDigit(c)
    ensures d < 10 && DigitChar(d) == c
  {
    c as int - '0' as int
  }

  function Pow10(k: nat): (p: nat)
    ensures p >= 1
  {
    if k == 0 then 1 else 10 * Pow10(k - 1)
  }

  /** The number a string of decimal digits denotes, most significant first. */
  function DigitsValue(s: string): nat
    requires AllDigits(s)
  {
    if s == [] then 0 else 10 * DigitsValue(s[..|s| - 1]) + DigitValue(s[|s| - 1])
  }

  /** The last `width` decimal digits of `n`, zero-padded on the left
      (a custom .NET format such as "yyyy" or "MM"). */
  function Pad(n: nat, width: nat): (s: string)
    ensures |s| == width && AllDigits(s)
  {
    if width == 0 then "" else Pad(n / 10, width - 1) + [DigitChar(n % 10)]
  }

  /** `n.ToString()` for a non-negative number: the shortest decimal form. */
  function NatToString(n: nat): (s: string)
    ensures |s| >= 1 && AllDigits(s)
  {
    if n < 10 then [DigitChar(n)] else NatToString(n / 10) + [DigitChar(n % 10)]
  }

  /** Reads back a non-empty run of decimal digits. */
  function ParseNat(s: string): (r: Option<nat>)
    ensures r.Some? <==> |s| >= 1 && AllDigits(s)
  {
    if |s| >= 1 && AllDigits(s) then Some(DigitsValue(s)) else None
  }

  /** Padding keeps the number whenever it fits in the width. */
  lemma {:induction false} PadValue(n: nat, width: nat)
    requires n < Pow10(width)
    ensures DigitsValue(Pad(n, width)) == n
  {
    if width > 0 {
      var s := Pad(n, width);
      assert s[..|s| - 1] == Pad(n / 10, width - 1);
      PadValue(n / 10, width - 1);
    }
  }

  /** Decimal rendering and parsing are inverse. */
  lemma {:induction false} NatToStringRoundTrip(n: nat)
    ensures ParseNat(NatToString(n)) == Some(n)
  {
    var s := NatToString(n);
    if n >= 10 {
      assert s[..|s| - 1] == NatToString(n / 10);
      NatToStringRoundTrip(n / 10);
      assert DigitsValue(s) == 10 * (n / 10) + n % 10;
    } else {
      assert DigitsValue(s) == 10 * DigitsValue(s[..0]) + n;
    }
  }
}

=== FILE: timestamps.dfy ===
/** UTC instants with the range and 100-nanosecond resolution of .NET's
    `DateTimeOffset.UtcDateTime`, their chronological order, and the
    `yyyy-MM-ddTHH:mm:ssZ` rendering used in Graph `$filter` clauses (the
    RFC 3339 section 5.6 `date-time` shape, whole seconds, `Z` offset). */
module Timestamps {
  import opened Wrappers
  import opened Text

  datatype DateTime = DateTime(year: int, month: int, day: int,
                               hour: int, minute: int, second: int, ticks: int)

  predicate IsLeapYear(y: int) {
    y % 4 == 0 && (y % 100 != 0 || y % 400 == 0)
  }

  function DaysInMonth(y: int, m: int): int {
    if m == 2 then (if IsLeapYear(y) then 29 else 28)
    else if m == 4 || m == 6 || m == 9 || m == 11 then 30
    else 31
  }

  /** A calendar reading .NET can represent: years 0001..9999, and `ticks`
      the 100 ns units below the second. */
  predicate Valid(t: DateTime) {
    && 1 <= t.year <= 9999
    && 1 <= t.month <= 12
    && 1 <= t.day <= DaysInMonth(t.year, t.month)
    && 0 <= t.hour < 24 && 0 <= t.minute < 60 && 0 <= t.second < 60
    && 0 <= t.ticks < 10_000_000
  }

  /** A UTC instant. */
  type Instant = t: DateTime | Valid(t) witness DateTime(1, 1, 1, 0, 0, 0, 0)

  /** `a < b` on instants: the calendar fields compared most significant first. */
  predicate Before(a: Instant, b: Instant) {
    if a.year != b.year then a.year < b.year
    else if a.month != b.month then a.month < b.month
    else if a.day != b.day then a.day < b.day
    else if a.hour != b.hour then a.hour < b.hour
    else if a.minute != b.minute then a.minute < b.minute
    else if a.second != b.second then a.second < b.second
    else a.ticks < b.ticks
  }

  /** The instant with its fraction of a second dropped. */
  function TruncateToSecond(t: Instant): (r: Instant)
    ensures r.ticks == 0
    ensures r == t.(ticks := 0)
  {
    t.(ticks := 0)
  }

  /** `t.ToString("yyyy-MM-ddTHH:mm:ssZ")` with `:` as the time separator. */
  function Format(t: Instant): (s: string)
    ensures |s| == 20
    ensures s[4] == '-' && s[7] == '-' && s[10] == 'T'
    ensures s[13] == ':' && s[16] == ':' && s[19] == 'Z'
  {
    Pad(t.year, 4) + "-" + Pad(t.month, 2) + "-" + Pad(t.day, 2) + "T"
    + Pad(t.hour, 2) + ":" + Pad(t.minute, 2) + ":" + Pad(t.second, 2) + "Z"
  }

  /** Reads a `yyyy-MM-ddTHH:mm:ssZ` timestamp back; `None` when the shape or
      the calendar fields are wrong. */
  function Parse(s: string): (r: Option<Instant>)
    ensures r.Some? ==> r.value.ticks == 0
  {
    if && |s| == 20
       && s[4] == '-' && s[7] == '-' && s[10] == 'T'
       && s[13] == ':' && s[16] == ':' && s[19] == 'Z'
       && AllDigits(s[0..4]) && AllDigits(s[5..7]) && AllDigits(s[8..10])
       && AllDigits(s[11..13]) && AllDigits(s[14..16]) && AllDigits(s[17..19])
    then
      var t := DateTime(DigitsValue(s[0..4]), DigitsValue(s[5..7]), DigitsValue(s[8..10]),
                        DigitsValue(s[11..13]), DigitsValue(s[14..16]), DigitsValue(s[17..19]), 0);
      if Valid(t) then Some(t) else None
    else None
  }

  /** Parsing undoes formatting, up to the dropped fraction of a second. */
  lemma ParseFormat(t: Instant)
    ensures Parse(Format(t)) == Some(TruncateToSecond(t))
  {
    var s := Format(t);
    assert s[0..4] == Pad(t.year, 4);
    assert s[5..7] == Pad(t.month, 2);
    assert s[8..10] == Pad(t.day, 2);
    assert s[11..13] == Pad(t.hour, 2);
    assert s[14..16] == Pad(t.minute, 2);
    assert s[17..19] == Pad(t.second, 2);
    assert Pow10(2) == 100 && Pow10(4) == 10000;
    PadValue(t.year, 4);
    PadValue(t.month, 2);
    PadValue(t.day, 2);
    PadValue(t.hour, 2);
    PadValue(t.minute, 2);
    PadValue(t.second, 2);
  }

  /** Two instants render alike exactly when they fall in the same second. */
  lemma FormatSameSecond(a: Instant, b: Instant)
    ensures Format(a) == Format(b) <==> TruncateToSecond(a) == TruncateToSecond(b)
  {
    ParseFormat(a);
    ParseFormat(b);
  }
}

=== FILE: wrappers.dfy ===
/** Option and Result, the stand-ins for C#'s `null` and for thrown exceptions. */
module Wrappers {

  /** A value that may be absent: `None` models a C# `null` reference or an
      empty `Nullable<T>`. */
  datatype Option<+T> = None | Some(value: T)

  /** Either a value or the exception an operation raises instead. */
  datatype Result<+R, +E> = Ok(value: R) | Err(error: E) {

    predicate IsFailure() {
      Err?
    }

    function PropagateFailure<U>(): Result<U, E>
      requires Err?
    {
      Err(error)
    }

    function Extract(): R
      requires Ok?
    {
      value
    }
  }
}
